=== FILE: README.md ===
# pushbutt: the device command core and the host reply matcher

pushbutt is an ESP32 push-button gadget. The firmware runs MicroPython
(`routine.py`). A desktop client talks to it over a serial line (`tui.py`).
This project models the logic the two sides share, as pure functions over
immutable records, and proves what that logic promises.

- **Button** (`button.dfy`): the debounced button. A rising edge is accepted
  only when strictly more than 300 ms have passed since the last accepted
  edge.
- **Http** (`http.dfy`): the templated HTTP client. It covers the setters,
  the `$$` template check, `render_data` with its left-to-right marker
  replacement, and the guard of `send_request`. The HTTP call and the parse
  of its reply form a parameter `transport`.
- **Pulse** (`pulse.dfy`): the LED pulse, as a trace of duty writes and
  sleeps. The brightness curve is a parameter `curve: nat -> nat`. A hardware
  fault is a parameter naming the action that raises.
- **Routine** (`routine.dfy`): the device state (LED flag, effects log, HTTP
  configuration, button, `running`). It covers the dispatcher `handle_cmd`,
  the button handler with its callback, and one pass of the `run` loop:
  - the echo comes first;
  - the reply is printed only when parse and dispatch succeed;
  - one heartbeat is printed while `running`.
- **Json** (`json.dfy`): the response shapes and the one-line text
  `json.dumps` gives them, with default separators and ASCII escaping.
- **Host** (`host.dfy`): `ESP32Client.send_command`. It frames the command
  with `\r\n` and makes at most eleven reads. It keeps the first stripped
  line that opens with `{"val`. A failure becomes `{"error": ...}`.
  `Host.Drain` models the buffer drain in the constructor.
- **Session** (`session.dfy`): the two sides together. It shows which device
  lines the host takes as a reply and which it skips.

The serial input is a finite sequence of reads. Each read is a line or a
failure; every read past its end times out with an empty line.

Where the code differs from what its names, constants and comments suggest, the model follows the code:

- **Retry bound.** The host reads at most **11** lines, not 10. The guard
  `try_count > 10` runs before each read, and the counter is incremented
  after it (`Host.SilenceCostsElevenReads`).
- **Pulse length.** A pulse sleeps `3000 // 100 = 30` ms after each of its
  200 duty writes. It lasts 6000 ms, not the 3000 ms that `CYCLE_MS`
  suggests (`Pulse.CompletedPulseSchedule`).
- **Debounce comparison.** The comparison is strict. An edge exactly 300 ms
  after the last accepted one is rejected.
- **Template check.** `set_data_template` checks only that `$$` is present,
  not that it is unique. The `set_data_template` command answers "Data
  template set" even when the template was refused.
- **Render error.** `send_request` does not check `render_data`'s result. The
  firmware never installs a value provider, so every request the device sends
  carries the error dictionary as its body (`Routine.FirmwareNeverRenders`).
- **Press callback.** `on_button_press` calls `self.send_request()`, which
  neither `MyRoutine` nor its base class defines. A press therefore runs the
  pulse and then raises `AttributeError`: no request is sent and no reply is
  printed (see Findings).
- **Missing template field.** A `set_data_template` command without a
  `data_template` field raises inside `handle_cmd` (`"$$" in None`). The run
  loop swallows it and prints no reply.

## Model

| member | source | states |
|---|---|---|
| Button.SetOnPress | routine.py:53-54 | installing the callback sets it and keeps `last_time` |
| Button.Pressed | routine.py:56-64 | an edge is accepted iff `now - last_time > 300`; acceptance stores `now`; rejection changes nothing and calls nothing; `on_press` runs iff the edge is accepted and a callback is set |
| Button.EdgeAtWindowIsRejected | routine.py:58 | an edge exactly 300 ms after the last accepted one is rejected, one at 301 ms is accepted |
| Button.FeedIsSpaced | routine.py:56-64 | over any series of edges, consecutive accepted presses are more than 300 ms apart, and the button remembers the last accepted one |
| Button.BounceIsIgnored | routine.py:56-64 | edges within 300 ms of the last accepted one leave the button unchanged and accept nothing |
| Button.BurstIsOnePress | routine.py:56-64 | an accepted edge followed by bounces inside its window yields exactly one press |
| Http.SetUrl | routine.py:74-75 | the url becomes the given value and nothing else changes |
| Http.SetMethod | routine.py:77-78 | the method becomes the given value and nothing else changes |
| Http.SetGetData | routine.py:85-86 | the value provider becomes the given one and nothing else changes |
| Http.SetDataTemplate | routine.py:80-83 | succeeds iff the template contains `$$`; success stores it verbatim; failure returns the "must contain $$" error and leaves the configuration unchanged |
| Http.ReplaceMarker | routine.py:92 | a template the scan finds no marker in comes back unchanged, and a first character that is not `$` is kept |
| Http.ReplaceFirstMarker | routine.py:92 | the first marker is replaced by the value, the text before it is kept as it is, and the scan resumes right after the marker |
| Http.MarkerCountPositiveIffMarker | routine.py:81-92 | the replacement scan replaces something iff `"$$" in template`, linking the check to the rendering |
| Http.NoMarkerRendersVerbatim | routine.py:92 | a template without `$$` renders to itself |
| Http.RenderedLength | routine.py:92 | each replaced marker trades its two characters for the value |
| Http.RenderLeavesNoMarker | routine.py:92 | when the value holds no `$`, every marker is replaced and none remains |
| Http.RenderChangesText | routine.py:92 | a template with a marker, rendered with a two-character value other than `$$`, gives a different text (for values of any other length `Http.RenderedLength` already changes the length) |
| Http.RenderExample | routine.py:92 | `"a $$ b"` rendered with `"X"` is `"a X b"` |
| Http.RenderOverlapExample | routine.py:92 | markers do not overlap: `"$$$"` renders to `"X$"` |
| Http.RenderData | routine.py:88-93 | returns the "not set" error iff the template or the provider is missing; otherwise the template with every marker replaced by the value, with its length fixed by the marker count and equal to the template when it has no marker |
| Http.SendRequest | routine.py:95-106 | with url or method unset, returns the "URL or method not set" error and issues no request; otherwise issues one request with the stored method and url, the JSON header, and the rendered template as the body, and returns the transport's answer |
| Http.RenderErrorIsSentAsBody | routine.py:98-103 | with url and method set but no template or provider, the error dictionary itself is sent as the body |
| Pulse.FadeOutReversesFadeIn | routine.py:132-140 | the fade-out visits exactly the fade-in's steps in reverse order |
| Pulse.PhaseWritesCurve | routine.py:132-137 | a fade phase writes the curve's duty for each listed step, in order |
| Pulse.PhaseSleeps | routine.py:132-137 | a fade phase sleeps 30 ms per step |
| Pulse.Pulse | routine.py:127-151 | the last duty written is 0 on every path; success iff no action raised, and then the full ramp plus the final 0 and `{"val": "ok"}`; otherwise (a ramp action or the final `duty(0)` raised) the ramp up to the failing action, then the handler's 0 and `{"error": msg}` |
| Pulse.CompletedPulseSchedule | routine.py:129-148 | a completed pulse writes the 100 fade-in duties, the same duties reversed, then 0, and sleeps 6000 ms in all |
| Pulse.FailedPulseEndsDark | routine.py:149-151 | a failed pulse writes a prefix of the ramp's duties followed by 0 and returns the error |
| Pulse.FinalWriteFaultLooksComplete | routine.py:147-151 | when the final `duty(0)` raises, the handler's `duty(0)` leaves the same writes as a completed pulse, yet the error is returned |
| Routine.PulseWrites | routine.py:132-151 | the duty writes of a pulse, as the effects log records them, are not empty and end at 0, whether or not the pulse failed |
| Routine.CompletedPulseWrites | routine.py:132-148 | a pulse without a fault records the 100 fade-in duties, the same duties reversed, then 0 |
| Routine.FailedPulseWrites | routine.py:132-151 | a pulse that faults records the ramp's duties up to the failing action, then the handler's 0 |
| Routine.DoPulse | routine.py:169-170 | a pulse only appends its duty writes to the effects log, leaves the LED at duty 0, and hands back the pulse's own reply |
| Routine.DoSend | routine.py:180-181 | a send appends at most one issued request: when url and method are set, exactly the request with the stored method and url, the rendered body and the JSON header, whose transport answer is the reply; nothing otherwise |
| Routine.SendCommandReportsTransport | routine.py:180-181 | with url and method set, `send_request` appends the request built from the stored configuration and answers what the transport answers |
| Routine.HandleCmd | routine.py:153-190 | raises iff the command is `set_data_template` without a template; otherwise `running`, the button and the provider are kept; the LED flips iff the command is `led`; effects are only appended, and a command that writes duties leaves duty 0; only the three setters change the HTTP configuration, and only `pulse` and `send_request` change the effects |
| Routine.NetworkCommandsOnlyAnswer | routine.py:157-168 | `check_wifi`, `connect_wifi`, `disconnect_wifi` and `get_ip` answer what the radio reports (connected flag, fixed success or failure text, fixed text, IP address) and leave the state unchanged |
| Routine.PulseCommandReportsPulse | routine.py:169-170 | `pulse` appends exactly the pulse's duty writes and answers `{"val": "ok"}` when no action raised, the fault's `{"error": msg}` otherwise |
| Routine.LedTwiceRestores | routine.py:154-156 | `led` twice restores the whole state and answers "LED toggled" |
| Routine.UnrecognisedChangesNothing | routine.py:190 | an unknown or missing command answers "Invalid command" and changes nothing |
| Routine.SettersTouchOnlyTheirField | routine.py:171-176 | `set_url` and `set_method` change only their own field and answer fixed messages |
| Routine.SetTemplateAlwaysAcknowledges | routine.py:177-179 | `set_data_template` always answers "Data template set"; the template is stored only when it holds `$$`; nothing else changes |
| Routine.DumpHttpIsVerbatim | routine.py:182-189 | in every state, `dump_http` returns the stored url, method and template verbatim, unrendered, `null` for an unset one, and changes nothing |
| Routine.ConfigureThenDump | routine.py:171-189 | after setting url, method and template from start-up, `dump_http` returns exactly the values given |
| Routine.SendGuard | routine.py:95-97 | `send_request` with url or method unset answers the config error and leaves the state, including the effects log, unchanged |
| Routine.Init | routine.py:110-120 | start-up leaves the LED off (the pin is taken to start low, as `Pin(3, Pin.OUT)` sets no level), duty 0 written, the HTTP client unconfigured, the callback installed, `last_time` 0 and the loop running |
| Routine.OnButtonPress | routine.py:122-124 | the press callback as written appends exactly the pulse's duty writes and changes nothing else, leaves duty 0, and then raises the missing-attribute error |
| Routine.OnButtonPressIntended | routine.py:122-125 | the callback calling the HTTP client keeps everything but the effects, appends the pulse's duty writes and then one request iff url and method are set; otherwise it logs the "URL or method not set" error |
| Routine.Press | routine.py:56-64 | an edge is rejected iff within 300 ms, and then nothing changes and `False` is returned; an accepted edge records its time; with the callback installed the pulse runs and the exception escapes the handler, otherwise `True` is returned; nothing is ever printed as a reply |
| Routine.PressIntended | routine.py:56-64 | the handler with the intended callback returns whether the edge was accepted, and prints the callback's reply iff it was accepted and the callback is installed |
| Routine.PressNeverIssues | routine.py:56-64 | as written, a press only ever appends duty writes: it never issues a request, and when the callback ran it appended exactly the pulse's writes, ending dark |
| Routine.IntendedPressIssuesConfiguredRequest | routine.py:122-125 | with the intended callback and the client configured, an accepted press appends the pulse's writes and then exactly the request `send_request` builds, and prints the transport's answer to it |
| Routine.Iterate | routine.py:192-205 | the received line is echoed first; a reply follows iff parse and dispatch both succeed, and only then does the state change; exactly one heartbeat is printed iff `running`, and it comes last; a pass with a reply prints just the echo, the reply and (when running) the heartbeat, and any other pass with a line prints only the echo and (when running) the heartbeat |
| Routine.FirmwareStepsStayFirmware | routine.py:110-120 | from start-up, commands, presses and loop passes never install a value provider, never remove the callback and never stop the loop |
| Routine.FirmwareNeverRenders | routine.py:95-103 | in any state the firmware reaches, a send issues a request whose body is the render error |
| Json.Encode | routine.py:198-203 | the text is not empty; it opens with `{`, `[` or `"` iff the value is an object, list or string, and then closes with the matching delimiter |
| Json.EncodeIsOneLine | routine.py:198 | every encoded response is one line of printable ASCII, so it cannot break the line framing |
| Host.StripLeftRemovesLeadingSpace | tui.py:41 | `lstrip` drops only white space and keeps a suffix that does not open with white space |
| Host.StripRightRemovesTrailingSpace | tui.py:41 | `rstrip` drops only white space and keeps a prefix that does not close with white space |
| Host.Strip | tui.py:41 | neither end of the stripped text is white space, it is no longer than the input, and text whose ends are not white space is kept whole |
| Host.StripTerminated | tui.py:41 | a line with non-space ends, followed by its terminator, strips back to the line |
| Host.StripKeepsPrefix | tui.py:41-42 | stripping keeps a prefix whose ends are not white space |
| Host.OtherHeadNeverMatches | tui.py:42 | a line opening with a different five-character head never matches `{"val` |
| Host.Conclude | tui.py:46-48 | a stopping read always yields a result: the parse of the line, or an error payload |
| Host.Poll | tui.py:36-45 | at most eleven reads; every read before the last one made does not stop the loop; no result means eleven reads with no stop; otherwise the last read stops the loop and decides the result |
| Host.FrameIsOneLine | tui.py:33 | the frame is the encoded command plus exactly `\r\n`, with no other line terminator |
| Host.SendCommand | tui.py:31-48 | a failed write yields the error payload with nothing written or read; otherwise the framed command is written and between one and eleven lines are read |
| Host.FirstStopDecides | tui.py:36-46 | when read k (k ≤ 10) is the first that stops the loop, exactly k + 1 lines are read and that read decides the result; earlier lines are discarded and later ones are left unread |
| Host.NoStopMeansNoResult | tui.py:36-40 | when none of the first eleven reads stops the loop, the result is `None` after exactly eleven reads |
| Host.SilenceCostsElevenReads | tui.py:36-41 | a silent device costs eleven reads, not ten |
| Host.SendCommandLoop | tui.py:31-48 | the loop as written computes the same exchange as the recursive definition |
| Host.ReadChunk | tui.py:28 | a read returns the next `min(n, remaining)` bytes of the buffer |
| Host.Drain | tui.py:27-29 | draining stops, reads every buffered byte in order, makes one read per started 100 bytes plus a final empty one, and every other chunk holds 1 to 100 bytes |
| Session.ValueReplyMatches | tui.py:41-42 | the device's `{"val": ...}` line always stops the host's loop, and strips back to its JSON text |
| Session.OtherFirstKeySkipped | tui.py:42 | an object line whose first key starts with a lower-case letter other than `v` is never taken |
| Session.QuietLinesSkipped | tui.py:42 | heartbeats, error replies and echoes of command lines are never taken as a reply |
| Session.QuietBeforeReply | tui.py:36-42 | heartbeats and the echo before a `{"val"...}` reply never stop the host's polling |
| Session.ReplyAfterQuietLines | tui.py:36-46 | after up to nine heartbeats and the echo, the host takes the `{"val"...}` reply in `beats + 2` reads, leaving the rest of the stream unread |
| Session.LateReplyIsLost | tui.py:36-40 | after ten or more heartbeats ahead of the echo, the eleven reads run out before the reply: the call ends with no result |
| Session.ValueReplyReachesHost | routine.py:192-205 | a loop pass that answers with a value prints the echo and then the reply, and the host, with up to nine heartbeats ahead, takes that reply |
| Session.ErrorsLookLikeSilence | tui.py:36-46 | a stream of quiet device lines, including error replies, ends the call with no result after eleven reads |

## Left out

- The `Network` class (routine.py:15-38) is not modelled: it wraps the WLAN radio stack and busy-waits to connect. Its answers (connected, connect succeeded, IP address) are fields of `Routine.Env`.
- `urequests.request` and the parse of the HTTP reply (routine.py:98-106) are not modelled. They are the parameter `transport`, which also stands for any exception they raise, turned into `{"error": str(e)}`.
- The floating-point brightness curve (routine.py:133-135, 141-143) is the parameter `curve`. Only which step's duty is written, and when, is modelled.
- Timing and hardware are not modelled: `sleep_ms` appears only as trace entries. Also left out are `ticks_ms` and its wrap-around (the clock reading is an unbounded integer passed in), `Pin`/`PWM` set-up, and the DTR/RTS reset toggling (tui.py:21-25).
- The button interrupt firing concurrently with the run loop is not modelled. A press is a sequential call between loop passes. What the interrupt system does with an exception that escapes the handler is not modelled either.
- The console lines the firmware prints besides the protocol lines are not modelled ("Routine initialized", "Button released!"). They reach the host's matcher too; a Python repr of a dictionary opens with `{'`, so it is skipped unless its first key opens with `val` and holds a single quote (Python then quotes the key with `"`).
- JSON decoding (`json.loads` on both sides) is not modelled. It is a parameter: `parse` on the device, `loads` on the host. Only the encoding is modelled, after CPython's `json.dumps`; MicroPython's escaping of non-ASCII text may differ.
- JSON numbers with a fraction or exponent are not modelled: the device's own replies carry none, so `Json.Value` has integers only, and a remote reply holding one is outside the model.
- Command fields holding JSON values other than strings are not modelled (a numeric `url`, say). Every field is a string or missing.
- Bytes arriving while the buffer is drained are not modelled. The buffer is fixed when the port is opened.
- The Textual user interface (tui.py:54 onwards) and the toggle-tapo example are not modelled. They are widgets and a cloud API wrapper with no protocol logic.
- Http.RenderData: the value provider is taken to return a string without raising. If `get_data()` raised, or returned something `replace` rejects (routine.py:91-92), `send_request` would return `{"error": str(e)}` without issuing a request (routine.py:105-106); the model has no such path. The firmware never installs a provider.
- Pulse.Pulse: the `duty(0)` in the exception handler (routine.py:150) is taken to succeed. If it raised too, the exception would escape `pulse` with no reply; the model has no such path.
- Host.SendCommand: its own contract states only the write and the read-count bounds; which line decides the result is stated by Host.FirstStopDecides and Host.NoStopMeansNoResult.

## Findings

| source | as written | input that shows it | evidently intended | confidence | as-written member | corrected member |
|---|---|---|---|---|---|---|
| routine.py:124 | `res = self.send_request()` calls a method that `MyRoutine` and `Routine` do not define, so every accepted press raises `AttributeError` after the pulse | an accepted edge (more than 300 ms after the last) with the callback installed, in any configuration: the effects gain only duty writes, nothing is printed, and the handler does not return `True` | `res = self.http_client.send_request()`, so that a press pulses, sends the configured request and prints its reply | high; not executed | Routine.Press, Routine.PressNeverIssues | Routine.PressIntended, Routine.IntendedPressIssuesConfiguredRequest |

=== FILE: button.dfy ===
/** The debounced push button (`Button` in routine.py): a rising edge counts as
    a press only when more than 300 ms have passed since the last accepted one. */
module Button {

  /** An edge is accepted only when strictly more than this many milliseconds
      separate it from the previously accepted edge. */
  const DebounceMs: int := 300

  /** `last_time` of the last accepted edge, and whether `on_press` is set. */
  datatype Button = Button(lastTime: int, hasCallback: bool)

  /** A fresh button: `last_time = 0`, no callback. */
  function Init(): Button
  {
    Button(0, false)
  }

  function SetOnPress(b: Button): (r: Button)
    ensures r.hasCallback && r.lastTime == b.lastTime
  {
    b.(hasCallback := true)
  }

  /** The outcome of one edge: the button afterwards, the value
      `button_pressed` returns, and whether it invoked `on_press`. */
  datatype Edge = Edge(button: Button, accepted: bool, invokes: bool)

  /** `button_pressed`, with the clock reading `now` passed in. */
  function Pressed(b: Button, now: int): (e: Edge)
    ensures e.accepted <==> now - b.lastTime > DebounceMs
    ensures e.accepted ==> e.button.lastTime == now
    ensures !e.accepted ==> e.button == b && !e.invokes
    ensures e.button.hasCallback == b.hasCallback
    ensures e.invokes <==> e.accepted && b.hasCallback
  {
    if now - b.lastTime > DebounceMs then
      Edge(b.(lastTime := now), true, b.hasCallback)
    else
      Edge(b, false, false)
  }

  /** An edge exactly at the end of the window is still chatter. */
  lemma EdgeAtWindowIsRejected(b: Button)
    ensures !Pressed(b, b.lastTime + DebounceMs).accepted
    ensures Pressed(b, b.lastTime + DebounceMs + 1).accepted
  {
  }

  /** Feeds a series of edge times to the button: the button afterwards and the
      times of the edges it accepted, in order. */
  function Feed(b: Button, times: seq<int>): (Button, seq<int>)
    decreases times
  {
    if |times| == 0 then (b, [])
    else
      var e := Pressed(b, times[0]);
      var rest := Feed(e.button, times[1..]);
      (rest.0, (if e.accepted then [times[0]] else []) + rest.1)
  }

  /** Each accepted time lies more than the window after its predecessor (the
      first one after `last`). */
  ghost predicate Spaced(last: int, accepted: seq<int>)
  {
    && (|accepted| > 0 ==> accepted[0] - last > DebounceMs)
    && forall i :: 0 < i < |accepted| ==> accepted[i] - accepted[i - 1] > DebounceMs
  }

  /** The last accepted time, or `last` when nothing was accepted. */
  function LastOr(last: int, accepted: seq<int>): int
  {
    if |accepted| == 0 then last else accepted[|accepted| - 1]
  }

  /** Prepending an edge accepted after `last` keeps a spaced series spaced. */
  lemma SpacedCons(last: int, t: int, rest: seq<int>)
    requires t - last > DebounceMs && Spaced(t, rest)
    ensures Spaced(last, [t] + rest)
  {
    var acc := [t] + rest;
    forall i | 0 < i < |acc|
      ensures acc[i] - acc[i - 1] > DebounceMs
    {
      if i > 1 {
        assert acc[i] == rest[i - 1] && acc[i - 1] == rest[i - 2];
      }
    }
  }

  /** One step of `Feed`: the first edge's outcome, then the rest. */
  lemma FeedStep(b: Button, times: seq<int>)
    requires |times| > 0
    ensures
      var e := Pressed(b, times[0]);
      var rest := Feed(e.button, times[1..]);
      && Feed(b, times).0 == rest.0
      && Feed(b, times).1 == (if e.accepted then [times[0]] + rest.1 else rest.1)
  {
    var e := Pressed(b, times[0]);
    if !e.accepted {
      assert [] + Feed(e.button, times[1..]).1 == Feed(e.button, times[1..]).1;
    }
  }

  /** Whatever the edge times, any two consecutive accepted presses are more
      than 300 ms apart, and the button remembers the last accepted one. */
  lemma {:induction false} FeedIsSpaced(b: Button, times: seq<int>)
    ensures Spaced(b.lastTime, Feed(b, times).1)
    ensures Feed(b, times).0.lastTime == LastOr(b.lastTime, Feed(b, times).1)
    decreases times
  {
    if |times| > 0 {
      var e := Pressed(b, times[0]);
      FeedIsSpaced(e.button, times[1..]);
      FeedStep(b, times);
      var rest := Feed(e.button, times[1..]).1;
      if e.accepted {
        SpacedCons(b.lastTime, times[0], rest);
        assert LastOr(times[0], rest) == LastOr(b.lastTime, [times[0]] + rest);
      }
    }
  }

  /** A burst of bounces inside the window after an accepted edge leaves the
      button untouched: only the first edge of the burst counts. */
  lemma {:induction false} BounceIsIgnored(b: Button, bounces: seq<int>)
    requires forall i :: 0 <= i < |bounces| ==> bounces[i] - b.lastTime <= DebounceMs
    ensures Feed(b, bounces) == (b, [])
  {
    if |bounces| > 0 {
      var e := Pressed(b, bounces[0]);
      assert !e.accepted && e.button == b;
      BounceIsIgnored(b, bounces[1..]);
      assert Feed(e.button, bounces[1..]) == (b, []);
      assert Feed(b, bounces).0 == b;
      assert Feed(b, bounces).1 == [];
    }
  }

  lemma BurstIsOnePress(b: Button, first: int, bounces: seq<int>)
    requires first - b.lastTime > DebounceMs
    requires forall i :: 0 <= i < |bounces| ==> bounces[i] - first <= DebounceMs
    ensures Feed(b, [first] + bounces).1 == [first]
  {
    var after := Pressed(b, first).button;
    assert ([first] + bounces)[1..] == bounces;
    BounceIsIgnored(after, bounces);
  }
}

=== FILE: common.dfy ===
/** Small shared vocabulary: optional values, results, bytes and string helpers. */
module Common {

  /** Python's `None`-or-value, as used for every unset configuration field. */
  datatype Option<+T> = None | Some(value: T)

  /** A computation that either produced a value or raised with a message. */
  datatype Result<+T, +E> = Ok(value: T) | Err(error: E)

  /** One byte of a serial buffer. */
  newtype byte = x: int | 0 <= x < 256

  /** `s.startswith(p)` */
  predicate StartsWith(s: string, p: string)
  {
    |p| <= |s| && s[..|p|] == p
  }

  /** Every character of `s` is printable ASCII (space through tilde), so `s`
      holds no line terminator and occupies exactly one line on the wire. */
  predicate Printable(s: string)
  {
    forall i :: 0 <= i < |s| ==> ' ' <= s[i] <= '~'
  }

  lemma PrintableConcat(a: string, b: string)
    requires Printable(a) && Printable(b)
    ensures Printable(a + b)
  {
    forall i | 0 <= i < |a + b|
      ensures ' ' <= (a + b)[i] <= '~'
    {
      if i < |a| {
        assert (a + b)[i] == a[i];
      } else {
        assert (a + b)[i] == b[i - |a|];
      }
    }
  }

  lemma StartsWithConcat(s: string, t: string, p: string)
    requires StartsWith(s, p)
    ensures StartsWith(s + t, p)
  {
    assert (s + t)[..|p|] == s[..|p|];
  }

  /** A prefix of a prefix, framed by the same opening text. */
  lemma StartsWithInside(open: string, s: string, close: string, p: string, h: string)
    requires StartsWith(s, p) && StartsWith(p, h)
    ensures StartsWith(open + s + close, open + h)
  {
    var w := open + s + close;
    assert s[..|h|] == h;
    forall i | 0 <= i < |open + h|
      ensures w[i] == (open + h)[i]
    {
      if i >= |open| {
        assert w[i] == s[i - |open|];
      }
    }
  }

  /** Reverses a sequence. */
  function Reverse<T>(s: seq<T>): (r: seq<T>)
    ensures |r| == |s|
  {
    if |s| == 0 then [] else Reverse(s[1..]) + [s[0]]
  }

  lemma {:induction false} ReverseIndex<T>(s: seq<T>, i: nat)
    requires i < |s|
    ensures Reverse(s)[i] == s[|s| - 1 - i]
  {
    if i < |s| - 1 {
      ReverseIndex(s[1..], i);
    }
  }
}

=== FILE: host.dfy ===
/** The host side of the serial link (`ESP32Client` in tui.py): framing a
    command, polling a bounded number of lines for the first one that opens
    with `{"val`, and draining stale bytes when the port is opened. */
module Host {
  import opened Common
  import opened Json

  /** The literal a reply line must open with. */
  const ValPrefix := "{\"val"

  /** The guard `try_count > 10` is checked before each read and the counter
      is incremented after it, so reads happen for counts 0 through 10. */
  const MaxTry: nat := 10
  const MaxReads: nat := MaxTry + 1

  /** `str.isspace` for one character. */
  predicate IsSpace(c: char)
  {
    || c == ' ' || c == '\t' || c == '\n' || c == '\r'
    || c as int == 0x0B || c as int == 0x0C
    || 0x1C <= c as int <= 0x1F
    || c as int == 0x85 || c as int == 0xA0 || c as int == 0x1680
    || 0x2000 <= c as int <= 0x200A
    || c as int == 0x2028 || c as int == 0x2029 || c as int == 0x202F
    || c as int == 0x205F || c as int == 0x3000
  }

  /** `s.lstrip()` */
  function StripLeft(s: string): string
  {
    if |s| > 0 && IsSpace(s[0]) then StripLeft(s[1..]) else s
  }

  /** `s.rstrip()` */
  function StripRight(s: string): string
  {
    if |s| > 0 && IsSpace(s[|s| - 1]) then StripRight(s[..|s| - 1]) else s
  }

  /** `lstrip` removes exactly the leading white space: what it drops is white
      space, and what it keeps is a suffix not opening with white space. */
  lemma {:induction false} StripLeftRemovesLeadingSpace(s: string)
    ensures |StripLeft(s)| <= |s| && StripLeft(s) == s[|s| - |StripLeft(s)|..]
    ensures forall k :: 0 <= k < |s| - |StripLeft(s)| ==> IsSpace(s[k])
    ensures |StripLeft(s)| > 0 ==> !IsSpace(StripLeft(s)[0])
  {
    if |s| > 0 && IsSpace(s[0]) {
      StripLeftRemovesLeadingSpace(s[1..]);
      forall k | 1 <= k < |s| - |StripLeft(s)|
        ensures IsSpace(s[k])
      {
        assert s[k] == s[1..][k - 1];
      }
    }
  }

  /** `rstrip` removes exactly the trailing white space: what it drops is
      white space, and what it keeps is a prefix not closing with white space. */
  lemma {:induction false} StripRightRemovesTrailingSpace(s: string)
    ensures |StripRight(s)| <= |s| && StripRight(s) == s[..|StripRight(s)|]
    ensures forall k :: |StripRight(s)| <= k < |s| ==> IsSpace(s[k])
    ensures |StripRight(s)| > 0 ==> !IsSpace(StripRight(s)[|StripRight(s)| - 1])
  {
    if |s| > 0 && IsSpace(s[|s| - 1]) {
      StripRightRemovesTrailingSpace(s[..|s| - 1]);
      forall k | |StripRight(s)| <= k < |s| - 1
        ensures IsSpace(s[k])
      {
        assert s[k] == s[..|s| - 1][k];
      }
    }
  }

  /** `s.strip()`: neither end of the result is white space, and text whose
      ends are not white space is kept whole. */
  function Strip(s: string): (r: string)
    ensures |r| <= |s|
    ensures |r| > 0 ==> !IsSpace(r[0]) && !IsSpace(r[|r| - 1])
    ensures |s| > 0 && !IsSpace(s[0]) && !IsSpace(s[|s| - 1]) ==> r == s
  {
    StripLeftRemovesLeadingSpace(s);
    StripRightRemovesTrailingSpace(StripLeft(s));
    StripRight(StripLeft(s))
  }

  /** A line whose two ends are not white space, followed by white space only
      (the line terminator), strips back to the line. */
  lemma StripTerminated(line: string, tail: string)
    requires |line| > 0 && !IsSpace(line[0]) && !IsSpace(line[|line| - 1])
    requires forall k :: 0 <= k < |tail| ==> IsSpace(tail[k])
    ensures Strip(line + tail) == line
  {
    var s := line + tail;
    assert StripLeft(s) == s;
    var r := StripRight(s);
    StripRightRemovesTrailingSpace(s);
    assert !IsSpace(s[|line| - 1]);
    assert forall k :: |line| <= k < |s| ==> IsSpace(s[k]) by {
      forall k | |line| <= k < |s|
        ensures IsSpace(s[k])
      {
        assert s[k] == tail[k - |line|];
      }
    }
    assert |r| == |line|;
    assert r == s[..|line|] == line;
  }

  /** Stripping keeps a prefix whose two ends are not white space. */
  lemma StripKeepsPrefix(s: string, p: string)
    requires StartsWith(s, p) && |p| > 0 && !IsSpace(p[0]) && !IsSpace(p[|p| - 1])
    ensures StartsWith(Strip(s), p)
  {
    assert StripLeft(s) == s;
    var r := StripRight(s);
    StripRightRemovesTrailingSpace(s);
    assert s[|p| - 1] == p[|p| - 1];
    assert |r| >= |p|;
    assert r[..|p|] == s[..|p|];
  }

  /** `line.startswith('{"val')` */
  predicate Matches(line: string)
  {
    StartsWith(line, ValPrefix)
  }

  /** A line opening with a different prefix of the same length never matches. */
  lemma OtherHeadNeverMatches(line: string, head: string)
    requires |head| >= |ValPrefix| && StartsWith(line, head) && head[..|ValPrefix|] != ValPrefix
    ensures !Matches(line)
  {
    assert line[..|ValPrefix|] == head[..|ValPrefix|];
  }

  /** One `readline().decode("utf-8")`: a line of text (empty on a read
      timeout), or a failure of the port or of the decoding. */
  datatype Read = Got(text: string) | Fault(msg: string)

  /** The `k`-th read from a stream: past its end every read times out. */
  function ReadAt(stream: seq<Read>, k: nat): Read
  {
    if k < |stream| then stream[k] else Got("")
  }

  /** A read that ends the polling loop: a failure, or a matching line. */
  predicate Stops(r: Read)
  {
    r.Fault? || Matches(Strip(r.text))
  }

  /** What `send_command` returns: `None`, the parse of the reply line, or
      `{"error": str(e)}`. */
  datatype Reply<T> = NoResult | Parsed(value: T) | ErrorPayload(msg: string)

  /** The reply a stopping read yields; `loads` is `json.loads`, failing with
      its message. */
  function Conclude<T>(r: Read, loads: string -> Result<T, string>): (reply: Reply<T>)
    requires Stops(r)
    ensures !reply.NoResult?
  {
    match r
    case Fault(m) => ErrorPayload(m)
    case Got(t) =>
      match loads(Strip(t))
      case Ok(v) => Parsed(v)
      case Err(e) => ErrorPayload(e)
  }

  /** No read numbered from `lo` up to (excluding) `hi` stops the loop. */
  ghost predicate NoStopIn(stream: seq<Read>, lo: nat, hi: int)
  {
    forall j :: lo <= j < hi ==> !Stops(ReadAt(stream, j))
  }

  /** The polling loop from the read numbered `tries` on: how many reads it
      makes in all, and what it returns. */
  function Poll<T>(stream: seq<Read>, tries: nat, loads: string -> Result<T, string>): (r: (nat, Reply<T>))
    requires tries <= MaxReads
    ensures tries <= r.0 <= MaxReads
    ensures NoStopIn(stream, tries, r.0 - 1)
    ensures r.1.NoResult? ==> r.0 == MaxReads && NoStopIn(stream, tries, MaxReads)
    ensures !r.1.NoResult? ==> r.0 > tries && Stops(ReadAt(stream, r.0 - 1)) && r.1 == Conclude(ReadAt(stream, r.0 - 1), loads)
    decreases MaxReads - tries
  {
    if tries > MaxTry then (tries, NoResult)
    else
      var read := ReadAt(stream, tries);
      if Stops(read) then (tries + 1, Conclude(read, loads))
      else
        Poll(stream, tries + 1, loads)
  }

  /** `json.dumps(cmd).encode("utf-8") + b"\r\n"` for the encoded command. */
  function Frame(encoded: string): string
  {
    encoded + "\r\n"
  }

  /** A framed command is one line: the only line terminator is the final
      `\r\n`, so the device reads exactly the encoded command. */
  lemma FrameIsOneLine(cmd: Value)
    ensures
      var f := Frame(Encode(cmd));
      && |f| == |Encode(cmd)| + 2
      && f[..|f| - 2] == Encode(cmd)
      && f[|f| - 2..] == "\r\n"
      && forall k :: 0 <= k < |f| - 2 ==> f[k] != '\n' && f[k] != '\r'
  {
    EncodeIsOneLine(cmd);
  }

  /** One `send_command` call: the bytes written (none when the write raised),
      the number of lines read, and the result. */
  datatype Exchange<T> = Exchange(written: Option<string>, consumed: nat, result: Reply<T>)

  /** `send_command` for the encoded command. A failure of the encoding or the
      write is `writeFault`; the serial input is `stream`. */
  function SendCommand<T>(encoded: string, writeFault: Option<string>, stream: seq<Read>,
                          loads: string -> Result<T, string>): (x: Exchange<T>)
    ensures writeFault.Some? ==> x == Exchange(None, 0, ErrorPayload(writeFault.value))
    ensures writeFault.None? ==> x.written == Some(encoded + "\r\n") && 0 < x.consumed <= MaxReads
  {
    if writeFault.Some? then Exchange(None, 0, ErrorPayload(writeFault.value))
    else
      var p := Poll(stream, 0, loads);
      Exchange(Some(Frame(encoded)), p.0, p.1)
  }

  /** The reply is decided by the first stopping read among the first eleven:
      all earlier lines are discarded, exactly `k + 1` lines are consumed, and
      the lines after it are left unread. */
  lemma FirstStopDecides<T>(encoded: string, stream: seq<Read>, loads: string -> Result<T, string>, k: nat)
    requires k < MaxReads && Stops(ReadAt(stream, k))
    requires forall j :: 0 <= j < k ==> !Stops(ReadAt(stream, j))
    ensures SendCommand(encoded, None, stream, loads) == Exchange(Some(Frame(encoded)), k + 1, Conclude(ReadAt(stream, k), loads))
  {
    var p := Poll(stream, 0, loads);
    assert !NoStopIn(stream, 0, MaxReads) by {
      assert Stops(ReadAt(stream, k));
    }
    assert !p.1.NoResult?;
    assert !NoStopIn(stream, 0, k + 1) by {
      assert Stops(ReadAt(stream, k));
    }
    assert p.0 - 1 <= k;
    assert Stops(ReadAt(stream, p.0 - 1));
    assert p.0 - 1 >= k;
    assert p == (k + 1, Conclude(ReadAt(stream, k), loads));
  }

  /** When none of the first eleven reads stops the loop, the result is `None`
      after exactly eleven reads, whatever follows in the stream. */
  lemma NoStopMeansNoResult<T>(encoded: string, stream: seq<Read>, loads: string -> Result<T, string>)
    requires forall j :: 0 <= j < MaxReads ==> !Stops(ReadAt(stream, j))
    ensures SendCommand(encoded, None, stream, loads) == Exchange(Some(Frame(encoded)), MaxReads, NoResult)
  {
    var p := Poll(stream, 0, loads);
    assert p.1.NoResult?;
  }

  /** A silent device costs eleven reads, not ten. */
  lemma SilenceCostsElevenReads<T>(encoded: string, loads: string -> Result<T, string>)
    ensures SendCommand(encoded, None, [], loads).consumed == 11
    ensures SendCommand(encoded, None, [], loads).result == NoResult
  {
    forall j | 0 <= j < MaxReads
      ensures !Stops(ReadAt([], j))
    {
      assert Strip("") == "";
    }
    NoStopMeansNoResult(encoded, [], loads);
  }

  /** `send_command` written as the loop it is, over the same inputs. */
  method SendCommandLoop<T>(encoded: string, writeFault: Option<string>, stream: seq<Read>,
                            loads: string -> Result<T, string>) returns (x: Exchange<T>)
    ensures x == SendCommand(encoded, writeFault, stream, loads)
  {
    if writeFault.Some? {
      return Exchange(None, 0, ErrorPayload(writeFault.value));
    }
    var msg := Frame(encoded);
    var tryCount: nat := 0;
    var response := "";
    while true
      invariant tryCount <= MaxReads
      invariant Poll(stream, tryCount, loads) == Poll(stream, 0, loads)
      decreases MaxReads - tryCount
    {
      if tryCount > MaxTry {
        return Exchange(Some(msg), tryCount, NoResult);
      }
      var read := ReadAt(stream, tryCount);
      assert Poll(stream, tryCount, loads) ==
        if Stops(read) then (tryCount + 1, Conclude(read, loads)) else Poll(stream, tryCount + 1, loads);
      tryCount := tryCount + 1;
      match read {
        case Fault(m) =>
          return Exchange(Some(msg), tryCount, ErrorPayload(m));
        case Got(t) =>
          response := Strip(t);
          if Matches(response) {
            var reply := match loads(response) {
              case Ok(v) => Parsed(v)
              case Err(e) => ErrorPayload(e)
            };
            return Exchange(Some(msg), tryCount, reply);
          }
      }
    }
  }

  /** `read(n)`: up to `n` buffered bytes, none once the buffer is empty (the
      port's read timeout). */
  function ReadChunk(buffer: seq<byte>, n: nat): (chunk: seq<byte>)
    ensures |chunk| == if |buffer| < n then |buffer| else n
    ensures chunk == buffer[..|chunk|]
  {
    if |buffer| < n then buffer else buffer[..n]
  }

  /** The chunks read, joined in order. */
  function Flatten(chunks: seq<seq<byte>>): seq<byte>
  {
    if |chunks| == 0 then [] else Flatten(chunks[..|chunks| - 1]) + chunks[|chunks| - 1]
  }

  const ChunkSize: nat := 100

  /** The buffer drain in the constructor: read 100-byte chunks until a read
      comes back empty. Over a finite buffer it stops with every byte read, in
      order, after one read per started 100 bytes plus the final empty one. */
  method Drain(buffer: seq<byte>) returns (chunks: seq<seq<byte>>)
    ensures |chunks| == (|buffer| + ChunkSize - 1) / ChunkSize + 1
    ensures chunks[|chunks| - 1] == []
    ensures forall k :: 0 <= k < |chunks| - 1 ==> 0 < |chunks[k]| <= ChunkSize
    ensures Flatten(chunks) == buffer
  {
    var rest := buffer;
    chunks := [];
    while true
      invariant Flatten(chunks) + rest == buffer
      invariant forall k :: 0 <= k < |chunks| ==> 0 < |chunks[k]| <= ChunkSize
      invariant |chunks| == (|buffer| - |rest| + ChunkSize - 1) / ChunkSize
      invariant |rest| > 0 ==> (|buffer| - |rest|) % ChunkSize == 0
      decreases |rest|
    {
      var chunk := ReadChunk(rest, ChunkSize);
      var before := chunks;
      chunks := chunks + [chunk];
      assert Flatten(chunks) == Flatten(before) + chunk;
      if chunk == [] {
        return;
      }
      rest := rest[|chunk|..];
    }
  }
}

=== FILE: http.dfy ===
/** The templated HTTP request client (`HTTPClient` in routine.py): a URL, a
    method, a body template carrying the `$$` marker, and a value provider whose
    reading replaces the marker when the request is sent. */
module Http {
  import opened Common
  import opened Json

  /** The stored configuration; `getData` is the value the provider yields when
      it is called, `None` when no provider is set. */
  datatype Config = Config(
    url: Option<string>,
    httpMethod: Option<string>,
    dataTemplate: Option<string>,
    getData: Option<string>)

  /** Everything unset, as the constructor leaves it. */
  function Init(): Config
  {
    Config(None, None, None, None)
  }

  const TemplateError := Error("Data template must contain $$")
  const RenderError := Error("Data template or get data function not set")
  const ConfigError := Error("URL or method not set")

  /** The one header every request carries. */
  const JsonHeaders: seq<(string, string)> := [("Content-Type", "application/json")]

  /** `"$$" in s` */
  predicate HasMarker(s: string)
  {
    exists i :: 0 <= i < |s| - 1 && s[i] == '$' && s[i + 1] == '$'
  }

  function SetUrl(c: Config, url: Option<string>): (r: Config)
    ensures r.url == url
    ensures r.(url := c.url) == c
  {
    c.(url := url)
  }

  function SetMethod(c: Config, httpMethod: Option<string>): (r: Config)
    ensures r.httpMethod == httpMethod
    ensures r.(httpMethod := c.httpMethod) == c
  {
    c.(httpMethod := httpMethod)
  }

  function SetGetData(c: Config, value: Option<string>): (r: Config)
    ensures r.getData == value
    ensures r.(getData := c.getData) == c
  {
    c.(getData := value)
  }

  /** `set_data_template`: the configuration afterwards and what the setter
      returns (`None` on success). Only the presence of a marker is checked. */
  function SetDataTemplate(c: Config, t: string): (r: (Config, Option<Response>))
    ensures HasMarker(t) <==> r.1.None?
    ensures HasMarker(t) ==> r.0 == c.(dataTemplate := Some(t))
    ensures !HasMarker(t) ==> r.0 == c && r.1 == Some(TemplateError)
  {
    if !HasMarker(t) then (c, Some(TemplateError))
    else (c.(dataTemplate := Some(t)), None)
  }

  /** How many markers that scan replaces. */
  function MarkerCount(s: string): nat
  {
    if |s| < 2 then 0
    else if s[0] == '$' && s[1] == '$' then 1 + MarkerCount(s[2..])
    else MarkerCount(s[1..])
  }

  /** `s.replace("$$", rep)`: a left-to-right scan replacing non-overlapping
      markers. */
  function ReplaceMarker(s: string, rep: string): (r: string)
    ensures MarkerCount(s) == 0 ==> r == s
    ensures |s| > 0 && s[0] != '$' ==> |r| > 0 && r[0] == s[0]
  {
    if |s| < 2 then s
    else if s[0] == '$' && s[1] == '$' then rep + ReplaceMarker(s[2..], rep)
    else [s[0]] + ReplaceMarker(s[1..], rep)
  }

  lemma HasMarkerTail(s: string)
    requires |s| >= 2 && !(s[0] == '$' && s[1] == '$')
    ensures HasMarker(s) <==> HasMarker(s[1..])
  {
    if HasMarker(s) {
      var i :| 0 <= i < |s| - 1 && s[i] == '$' && s[i + 1] == '$';
      assert s[1..][i - 1] == s[i];
    }
    if HasMarker(s[1..]) {
      var i :| 0 <= i < |s[1..]| - 1 && s[1..][i] == '$' && s[1..][i + 1] == '$';
      assert s[i + 1] == '$' && s[i + 2] == '$';
    }
  }

  /** The scan finds a marker exactly when the template has one. */
  lemma {:induction false} MarkerCountPositiveIffMarker(s: string)
    ensures MarkerCount(s) > 0 <==> HasMarker(s)
  {
    if |s| >= 2 {
      if s[0] == '$' && s[1] == '$' {
        assert HasMarker(s) by { assert s[0] == '$' && s[1] == '$'; }
      } else {
        MarkerCountPositiveIffMarker(s[1..]);
        HasMarkerTail(s);
      }
    } else {
      assert !HasMarker(s);
    }
  }

  /** A template without a marker renders to itself. */
  lemma NoMarkerRendersVerbatim(s: string, rep: string)
    requires !HasMarker(s)
    ensures ReplaceMarker(s, rep) == s
  {
    MarkerCountPositiveIffMarker(s);
  }

  /** The scan replaces the first marker first: text before it that neither
      holds a marker nor ends in `$` is kept as it is, the marker becomes the
      value, and the scan resumes after the marker. */
  lemma ReplaceFirstMarker(a: string, b: string, rep: string)
    requires !HasMarker(a) && (|a| == 0 || a[|a| - 1] != '$')
    ensures ReplaceMarker(a + "$$" + b, rep) == a + rep + ReplaceMarker(b, rep)
  {
    KeepBeforeMarker(a, b, rep);
    assert a + "$$" + b == a + ("$$" + b);
    assert a + rep + ReplaceMarker(b, rep) == a + (rep + ReplaceMarker(b, rep));
  }

  lemma {:induction false} KeepBeforeMarker(a: string, b: string, rep: string)
    requires !HasMarker(a) && (|a| == 0 || a[|a| - 1] != '$')
    ensures ReplaceMarker(a + ("$$" + b), rep) == a + (rep + ReplaceMarker(b, rep))
  {
    if |a| == 0 {
      assert a + ("$$" + b) == "$$" + b;
      ReplaceLeadingMarker(b, rep);
    } else {
      NoMarkerAtHead(a, "$$" + b);
      KeepBeforeMarker(a[1..], b, rep);
      ReplacePlainHead(a, "$$" + b, rep, rep + ReplaceMarker(b, rep));
    }
  }

  /** A marker at the start is replaced, and the scan resumes after it. */
  lemma ReplaceLeadingMarker(b: string, rep: string)
    ensures ReplaceMarker("$$" + b, rep) == rep + ReplaceMarker(b, rep)
  {
    var s := "$$" + b;
    assert s[0] == '$' && s[1] == '$' && s[2..] == b;
  }

  /** A character that starts no marker is kept, and the scan moves on by
      one. */
  lemma ReplacePlainHead(a: string, x: string, rep: string, y: string)
    requires |a| > 0 && |a + x| >= 2
    requires !((a + x)[0] == '$' && (a + x)[1] == '$')
    requires ReplaceMarker(a[1..] + x, rep) == a[1..] + y
    ensures ReplaceMarker(a + x, rep) == a + y
  {
    var s := a + x;
    assert s[0] == a[0] && s[1..] == a[1..] + x;
    ReplaceStep(s, rep);
    ConsAppend(a, y);
  }

  lemma ConsAppend(a: string, y: string)
    requires |a| > 0
    ensures [a[0]] + (a[1..] + y) == a + y
  {
    assert [a[0]] + a[1..] == a;
  }

  /** One step of the scan over a character that starts no marker. */
  lemma ReplaceStep(s: string, rep: string)
    requires |s| >= 2 && !(s[0] == '$' && s[1] == '$')
    ensures ReplaceMarker(s, rep) == [s[0]] + ReplaceMarker(s[1..], rep)
  {
  }

  /** Text before the first marker starts no marker, and its tail is again
      such text. */
  lemma NoMarkerAtHead(a: string, x: string)
    requires |a| > 0 && |x| > 0 && !HasMarker(a) && a[|a| - 1] != '$'
    ensures |a + x| >= 2 && !((a + x)[0] == '$' && (a + x)[1] == '$')
    ensures !HasMarker(a[1..]) && (|a[1..]| == 0 || a[1..][|a[1..]| - 1] != '$')
  {
    var s := a + x;
    if |a| == 1 {
      assert s[0] == a[0] && a[0] != '$';
      assert |a[1..]| == 0;
    } else {
      assert s[0] == a[0] && s[1] == a[1];
      assert !(a[0] == '$' && a[1] == '$');
      HasMarkerTail(a);
    }
  }

  /** Each replaced marker trades two characters for the value. */
  lemma {:induction false} RenderedLength(s: string, rep: string)
    ensures |ReplaceMarker(s, rep)| == |s| + MarkerCount(s) * (|rep| - 2)
  {
    if |s| >= 2 {
      if s[0] == '$' && s[1] == '$' {
        var rest := s[2..];
        RenderedLength(rest, rep);
        assert ReplaceMarker(s, rep) == rep + ReplaceMarker(rest, rep);
        assert MarkerCount(s) == 1 + MarkerCount(rest);
        OneMoreMarker(|rest|, MarkerCount(rest), |rep|);
      } else {
        RenderedLength(s[1..], rep);
        assert ReplaceMarker(s, rep) == [s[0]] + ReplaceMarker(s[1..], rep);
      }
    }
  }

  /** The length count after one more marker. */
  lemma OneMoreMarker(n: int, m: int, k: int)
    ensures k + (n + m * (k - 2)) == (n + 2) + (1 + m) * (k - 2)
  {
    assert (1 + m) * (k - 2) == (k - 2) + m * (k - 2);
  }

  lemma NoMarkerInConcat(a: string, b: string)
    requires !HasMarker(a) && !HasMarker(b)
    requires |a| == 0 || |b| == 0 || a[|a| - 1] != '$' || b[0] != '$'
    ensures !HasMarker(a + b)
  {
    var ab := a + b;
    forall i | 0 <= i < |ab| - 1
      ensures !(ab[i] == '$' && ab[i + 1] == '$')
    {
      if i + 1 < |a| {
        assert ab[i] == a[i] && ab[i + 1] == a[i + 1];
      } else if i >= |a| {
        assert ab[i] == b[i - |a|] && ab[i + 1] == b[i - |a| + 1];
      } else {
        assert ab[i] == a[|a| - 1] && ab[i + 1] == b[0];
      }
    }
  }

  /** When the provided value has no `$`, no marker survives rendering: every
      marker of the template was replaced. */
  lemma {:induction false} RenderLeavesNoMarker(s: string, rep: string)
    requires forall k :: 0 <= k < |rep| ==> rep[k] != '$'
    ensures !HasMarker(ReplaceMarker(s, rep))
  {
    if |s| < 2 {
      assert !HasMarker(s);
    } else if s[0] == '$' && s[1] == '$' {
      RenderLeavesNoMarker(s[2..], rep);
      assert !HasMarker(rep);
      NoMarkerInConcat(rep, ReplaceMarker(s[2..], rep));
    } else {
      RenderLeavesNoMarker(s[1..], rep);
      NoMarkerInConcat([s[0]], ReplaceMarker(s[1..], rep));
    }
  }

  /** `"a $$ b"` rendered with `"X"` is `"a X b"`. */
  lemma RenderExample()
    ensures ReplaceMarker("a $$ b", "X") == "a X b"
  {
    assert ReplaceMarker("$$ b", "X") == "X" + ReplaceMarker(" b", "X");
    assert ReplaceMarker("a $$ b", "X") == "a" + ReplaceMarker(" $$ b", "X");
  }

  /** Markers do not overlap: of three `$`, the first two form the marker. */
  lemma RenderOverlapExample()
    ensures ReplaceMarker("$$$", "X") == "X$"
  {
    assert ReplaceMarker("$$$", "X") == "X" + ReplaceMarker("$", "X");
  }

  /** What `render_data` hands on: the rendered text, or the error dictionary
      it returns instead. */
  datatype Body = Rendered(text: string) | Unrendered(err: Response)

  /** `render_data` */
  function RenderData(c: Config): (b: Body)
    ensures b.Unrendered? <==> c.dataTemplate.None? || c.getData.None?
    ensures b.Unrendered? ==> b.err == RenderError
    ensures b.Rendered? ==>
      |b.text| == |c.dataTemplate.value| + MarkerCount(c.dataTemplate.value) * (|c.getData.value| - 2)
    ensures b.Rendered? && !HasMarker(c.dataTemplate.value) ==> b.text == c.dataTemplate.value
    ensures b.Rendered? ==> b.text == ReplaceMarker(c.dataTemplate.value, c.getData.value)
  {
    if c.dataTemplate.None? || c.getData.None? then Unrendered(RenderError)
    else
      var t := c.dataTemplate.value;
      var v := c.getData.value;
      RenderedLength(t, v);
      assert !HasMarker(t) ==> ReplaceMarker(t, v) == t by {
        if !HasMarker(t) { NoMarkerRendersVerbatim(t, v); }
      }
      Rendered(ReplaceMarker(t, v))
  }

  /** A replaced marker is visible in the output even when the value has the
      marker's length. */
  lemma {:induction false} RenderChangesText(s: string, rep: string)
    requires |rep| == 2 && rep != "$$" && MarkerCount(s) > 0
    ensures ReplaceMarker(s, rep) != s
  {
    if s[0] == '$' && s[1] == '$' {
      var r := ReplaceMarker(s, rep);
      assert r[..2] == rep;
      assert s[..2] == "$$";
    } else {
      RenderChangesText(s[1..], rep);
      assert ReplaceMarker(s, rep)[1..] == ReplaceMarker(s[1..], rep);
    }
  }

  /** The request handed to the HTTP transport. */
  datatype Request = Request(httpMethod: string, url: string, data: Body, headers: seq<(string, string)>)

  /** What `send_request` returns, and the request it issued, if any. */
  datatype Sent = Sent(resp: Response, request: Option<Request>)

  /** `send_request`. The transport (the HTTP call and the parse of its reply,
      with any exception turned into an error response) is the parameter. */
  function SendRequest(c: Config, transport: Request -> Response): (s: Sent)
    ensures s.request.None? <==> c.url.None? || c.httpMethod.None?
    ensures s.request.None? ==> s.resp == ConfigError
    ensures s.request.Some? ==>
      && s.request.value.url == c.url.value
      && s.request.value.httpMethod == c.httpMethod.value
      && s.request.value.headers == JsonHeaders
      && s.resp == transport(s.request.value)
    ensures s.request.Some? && c.dataTemplate.Some? && c.getData.Some? ==>
      s.request.value.data == Rendered(ReplaceMarker(c.dataTemplate.value, c.getData.value))
  {
    if c.url.None? || c.httpMethod.None? then Sent(ConfigError, None)
    else
      var req := Request(c.httpMethod.value, c.url.value, RenderData(c), JsonHeaders);
      Sent(transport(req), Some(req))
  }

  /** `render_data`'s error is not checked: with the URL and httpMethod set but no
      template or provider, the error dictionary itself goes out as the body. */
  lemma RenderErrorIsSentAsBody(c: Config, transport: Request -> Response)
    requires c.url.Some? && c.httpMethod.Some?
    requires c.dataTemplate.None? || c.getData.None?
    ensures SendRequest(c, transport).request == Some(Request(c.httpMethod.value, c.url.value, Unrendered(RenderError), JsonHeaders))
  {
  }
}

=== FILE: json.dfy ===
/** The JSON values exchanged over the serial link, the response shapes of the
    device protocol, and the single-line text encoding `json.dumps` gives them
    (default separators `", "` and `": "`, non-ASCII escaped). */
module Json {
  import opened Common

  datatype Value =
    | Null
    | Bool(b: bool)
    | Int(i: int)
    | Str(s: string)
    | List(items: seq<Value>)
    | Obj(members: seq<Member>)

  datatype Member = Member(key: string, value: Value)

  /** What a command handler returns: `{"val": v}`, `{"error": msg}`, or the
      JSON body an HTTP server sent back, passed through unchanged. */
  datatype Response = Val(v: Value) | Error(msg: string) | Remote(body: Value)

  function ToValue(r: Response): Value
  {
    match r
    case Val(v) => Obj([Member("val", v)])
    case Error(m) => Obj([Member("error", Str(m))])
    case Remote(b) => b
  }

  /** The unsolicited `{"status": "heartbeat"}` frame. */
  const Heartbeat: Value := Obj([Member("status", Str("heartbeat"))])

  function HexDigit(d: nat): char
    requires d < 16
  {
    if d < 10 then ('0' as int + d) as char else ('a' as int + d - 10) as char
  }

  /** Four lower-case hex digits, as `'\\u{0:04x}'` writes them. */
  function Hex4(n: nat): string
    requires n < 0x1_0000
  {
    [HexDigit(n / 0x1000), HexDigit(n / 0x100 % 16), HexDigit(n / 0x10 % 16), HexDigit(n % 16)]
  }

  /** The escape of one character: quote and backslash get a backslash, the five
      control characters with a short form get it, anything else outside
      printable ASCII becomes `\uXXXX` (a surrogate pair above the BMP). */
  function EscapeChar(c: char): (r: string)
    ensures Printable(r)
  {
    if c == '"' then "\\\""
    else if c == '\\' then "\\\\"
    else if c == '\n' then "\\n"
    else if c == '\r' then "\\r"
    else if c == '\t' then "\\t"
    else if c as int == 8 then "\\b"
    else if c as int == 12 then "\\f"
    else if ' ' <= c <= '~' then [c]
    else if c as int < 0x1_0000 then "\\u" + Hex4(c as int)
    else
      var n := c as int - 0x1_0000;
      "\\u" + Hex4(0xD800 + n / 0x400 % 0x400) + "\\u" + Hex4(0xDC00 + n % 0x400)
  }

  function Escape(s: string): (r: string)
    ensures Printable(r)
  {
    if |s| == 0 then ""
    else
      PrintableConcat(EscapeChar(s[0]), Escape(s[1..]));
      EscapeChar(s[0]) + Escape(s[1..])
  }

  function Quote(s: string): (r: string)
    ensures Printable(r)
  {
    PrintableConcat("\"", Escape(s));
    PrintableConcat("\"" + Escape(s), "\"");
    "\"" + Escape(s) + "\""
  }

  function NatText(n: nat): (r: string)
    ensures Printable(r)
    ensures |r| > 0 && '0' <= r[0] <= '9'
  {
    if n < 10 then [HexDigit(n)]
    else
      PrintableConcat(NatText(n / 10), [HexDigit(n % 10)]);
      NatText(n / 10) + [HexDigit(n % 10)]
  }

  function IntText(i: int): (r: string)
    ensures Printable(r)
    ensures |r| > 0 && (r[0] == '-' || '0' <= r[0] <= '9')
  {
    if i < 0 then
      PrintableConcat("-", NatText(-i));
      "-" + NatText(-i)
    else NatText(i)
  }

  function Join(parts: seq<string>, sep: string): string
  {
    if |parts| == 0 then ""
    else if |parts| == 1 then parts[0]
    else parts[0] + sep + Join(parts[1..], sep)
  }

  lemma {:induction false} JoinPrintable(parts: seq<string>, sep: string)
    requires Printable(sep)
    requires forall i :: 0 <= i < |parts| ==> Printable(parts[i])
    ensures Printable(Join(parts, sep))
  {
    if |parts| > 1 {
      JoinPrintable(parts[1..], sep);
      PrintableConcat(parts[0], sep);
      PrintableConcat(parts[0] + sep, Join(parts[1..], sep));
    }
  }

  lemma JoinHead(parts: seq<string>, sep: string)
    requires |parts| > 0
    ensures StartsWith(Join(parts, sep), parts[0])
  {
    if |parts| > 1 {
      StartsWithConcat(parts[0], sep + Join(parts[1..], sep), parts[0]);
      assert parts[0] + sep + Join(parts[1..], sep) == parts[0] + (sep + Join(parts[1..], sep));
    }
  }

  /** `json.dumps(v)`: the first character tells the kind of value, and a
      string, list or object text closes with the matching delimiter. */
  function Encode(v: Value): (r: string)
    ensures |r| > 0
    ensures r[0] == '{' <==> v.Obj?
    ensures r[0] == '[' <==> v.List?
    ensures r[0] == '"' <==> v.Str?
    ensures v.Obj? ==> |r| >= 2 && r[|r| - 1] == '}'
    ensures v.List? ==> |r| >= 2 && r[|r| - 1] == ']'
    ensures v.Str? ==> |r| >= 2 && r[|r| - 1] == '"'
    decreases v, 1
  {
    match v
    case Null => "null"
    case Bool(b) => if b then "true" else "false"
    case Int(i) => IntText(i)
    case Str(s) => Quote(s)
    case List(items) =>
      "[" + Join(seq(|items|, k requires 0 <= k < |items| => Encode(items[k])), ", ") + "]"
    case Obj(ms) =>
      "{" + Join(seq(|ms|, k requires 0 <= k < |ms| => MemberText(ms[k], v)), ", ") + "}"
  }

  /** `MemberText` with the enclosing object as a termination witness. */
  function MemberText(m: Member, parent: Value): string
    requires parent.Obj? && m in parent.members
    decreases parent, 0
  {
    Quote(m.key) + ": " + Encode(m.value)
  }

  /** Every encoded value is one line of printable ASCII: it can never break
      the line framing of the serial protocol. */
  lemma {:induction false} EncodeIsOneLine(v: Value)
    ensures Printable(Encode(v))
    decreases v
  {
    match v
    case Null =>
    case Bool(b) =>
    case Int(i) =>
    case Str(s) =>
    case List(items) =>
      var parts := seq(|items|, k requires 0 <= k < |items| => Encode(items[k]));
      forall k | 0 <= k < |parts|
        ensures Printable(parts[k])
      {
        EncodeIsOneLine(items[k]);
      }
      JoinPrintable(parts, ", ");
      PrintableConcat("[", Join(parts, ", "));
      PrintableConcat("[" + Join(parts, ", "), "]");
    case Obj(ms) =>
      var parts := seq(|ms|, k requires 0 <= k < |ms| => MemberText(ms[k], v));
      forall k | 0 <= k < |parts|
        ensures Printable(parts[k])
      {
        EncodeIsOneLine(ms[k].value);
        PrintableConcat(Quote(ms[k].key), ": ");
        PrintableConcat(Quote(ms[k].key) + ": ", Encode(ms[k].value));
      }
      JoinPrintable(parts, ", ");
      PrintableConcat("{", Join(parts, ", "));
      PrintableConcat("{" + Join(parts, ", "), "}");
  }

  /** An object's text opens with `{`, its first key and `": "`. */
  lemma ObjectHead(first: Member, rest: seq<Member>)
    ensures StartsWith(Encode(Obj([first] + rest)), "{" + Quote(first.key) + ": ")
  {
    var ms := [first] + rest;
    var v := Obj(ms);
    var parts := seq(|ms|, k requires 0 <= k < |ms| => MemberText(ms[k], v));
    var joined := Join(parts, ", ");
    assert Encode(v) == "{" + joined + "}";
    var key := Quote(first.key) + ": ";
    assert parts[0] == key + Encode(first.value);
    JoinHead(parts, ", ");
    StartsWithConcat(key, Encode(first.value), key);
    StartsWithInside("{", joined, "}", parts[0], key);
  }

  /** The line of a `{"val": ...}` response opens with `{"val"`. */
  lemma ValHead(v: Value)
    ensures StartsWith(Encode(ToValue(Val(v))), "{\"val\": ")
  {
    var m := Member("val", v);
    ObjectHead(m, []);
    assert [m] + [] == [m];
    ValKeyHead();
  }

  lemma ValKeyHead()
    ensures "{" + Quote("val") + ": " == "{\"val\": "
  {
    EscapeVal();
  }

  lemma EscapeVal()
    ensures Escape("val") == "val"
  {
    assert "val"[1..] == "al" && "al"[1..] == "l" && "l"[1..] == "";
    assert Escape("l") == "l";
    assert Escape("al") == "al";
  }
}

=== FILE: pulse.dfy ===
/** The LED pulse (`MyRoutine.pulse` in routine.py): a fade-in over 100 steps,
    the same steps backwards, then the output forced dark. The brightness curve
    is a parameter: the model only cares which step's duty is written when. */
module Pulse {
  import opened Common
  import opened Json

  const CycleMs: nat := 3000
  const Steps: nat := 100
  /** `CYCLE_MS // STEPS`, slept after every duty write. */
  const StepSleepMs: nat := CycleMs / Steps

  /** What the pulse does to the hardware, in order. */
  datatype Action = SetDuty(duty: nat) | SleepMs(ms: nat)

  /** One step: write the curve's duty for step `i`, then sleep. */
  function StepActions(curve: nat -> nat, i: nat): seq<Action>
  {
    [SetDuty(curve(i)), SleepMs(StepSleepMs)]
  }

  /** The steps for the step indices `idx`, in that order. */
  function Phase(curve: nat -> nat, idx: seq<nat>): (r: seq<Action>)
    ensures |r| == 2 * |idx|
  {
    if |idx| == 0 then []
    else StepActions(curve, idx[0]) + Phase(curve, idx[1..])
  }

  /** `range(STEPS)` */
  function FadeIn(): seq<nat>
  {
    seq(Steps, i requires 0 <= i < Steps => i as nat)
  }

  /** `range(STEPS - 1, -1, -1)` */
  function FadeOut(): seq<nat>
  {
    seq(Steps, i requires 0 <= i < Steps => (Steps - 1 - i) as nat)
  }

  /** The fade-out visits exactly the fade-in's steps, backwards. */
  lemma FadeOutReversesFadeIn()
    ensures FadeOut() == Reverse(FadeIn())
  {
    forall i | 0 <= i < Steps
      ensures FadeOut()[i] == Reverse(FadeIn())[i]
    {
      ReverseIndex(FadeIn(), i);
    }
  }

  /** The whole animation before the final dark write. */
  function Ramp(curve: nat -> nat): (r: seq<Action>)
    ensures |r| == 4 * Steps
  {
    Phase(curve, FadeIn()) + Phase(curve, FadeOut())
  }

  /** An exception raised by the action at index `at`: an index inside the
      ramp names one of its duty writes or sleeps, the index just past it the
      final `duty(0)`, and a later index never fires. The recovery `duty(0)`
      in the handler is taken to succeed. */
  datatype Fault = Fault(at: nat, msg: string)

  datatype Run = Run(trace: seq<Action>, resp: Response)

  /** `pulse`, under an optional fault. */
  function Pulse(curve: nat -> nat, fault: Option<Fault>): (r: Run)
    ensures |r.trace| > 0 && r.trace[|r.trace| - 1] == SetDuty(0)
    ensures r.resp.Val? <==> fault.None? || fault.value.at > 4 * Steps
    ensures r.resp.Val? ==> r.resp == Val(Str("ok")) && r.trace == Ramp(curve) + [SetDuty(0)]
    ensures !r.resp.Val? ==>
      && r.resp == Error(fault.value.msg)
      && r.trace == Ramp(curve)[..fault.value.at] + [SetDuty(0)]
  {
    var ramp := Ramp(curve);
    if fault.Some? && fault.value.at <= |ramp| then
      var trace := ramp[..fault.value.at] + [SetDuty(0)];
      assert trace[|trace| - 1] == SetDuty(0);
      Run(trace, Error(fault.value.msg))
    else
      var trace := ramp + [SetDuty(0)];
      assert trace[|trace| - 1] == SetDuty(0);
      Run(trace, Val(Str("ok")))
  }

  /** The duties written by a trace, in order. */
  function Duties(trace: seq<Action>): seq<nat>
  {
    if |trace| == 0 then []
    else (if trace[0].SetDuty? then [trace[0].duty] else []) + Duties(trace[1..])
  }

  /** The milliseconds slept by a trace. */
  function Slept(trace: seq<Action>): nat
  {
    if |trace| == 0 then 0
    else (if trace[0].SleepMs? then trace[0].ms else 0) + Slept(trace[1..])
  }

  lemma {:induction false} DutiesConcat(a: seq<Action>, b: seq<Action>)
    ensures Duties(a + b) == Duties(a) + Duties(b)
    ensures Slept(a + b) == Slept(a) + Slept(b)
  {
    if |a| == 0 {
      assert a + b == b;
    } else {
      assert (a + b)[0] == a[0];
      assert (a + b)[1..] == a[1..] + b;
      DutiesConcat(a[1..], b);
    }
  }

  /** A trace whose last action sets duty 0 writes 0 last. */
  lemma DutiesEndDark(trace: seq<Action>)
    requires |trace| > 0 && trace[|trace| - 1] == SetDuty(0)
    ensures |Duties(trace)| > 0 && Duties(trace)[|Duties(trace)| - 1] == 0
  {
    var init := trace[..|trace| - 1];
    assert trace == init + [SetDuty(0)];
    DutiesConcat(init, [SetDuty(0)]);
    assert Duties([SetDuty(0)]) == [0] by {
      assert [SetDuty(0)][1..] == [];
    }
  }

  /** The duty of each listed step, in order. */
  function Curve(curve: nat -> nat, idx: seq<nat>): (r: seq<nat>)
    ensures |r| == |idx|
  {
    seq(|idx|, k requires 0 <= k < |idx| => curve(idx[k]))
  }

  /** One step writes its duty once and sleeps once. */
  lemma StepSchedule(curve: nat -> nat, i: nat)
    ensures Duties(StepActions(curve, i)) == [curve(i)]
    ensures Slept(StepActions(curve, i)) == StepSleepMs
  {
    var a := StepActions(curve, i);
    var tail := [SleepMs(StepSleepMs)];
    assert a[1..] == tail && tail[1..] == [];
    assert Duties(tail) == [] + Duties([]);
    assert Slept(tail) == StepSleepMs + Slept([]);
    assert Duties(a) == [curve(i)] + Duties(tail);
    assert Slept(a) == 0 + Slept(tail);
  }

  lemma {:induction false} PhaseWritesCurve(curve: nat -> nat, idx: seq<nat>)
    ensures Duties(Phase(curve, idx)) == Curve(curve, idx)
  {
    if |idx| > 0 {
      var step := StepActions(curve, idx[0]);
      var rest := Phase(curve, idx[1..]);
      assert Phase(curve, idx) == step + rest;
      PhaseWritesCurve(curve, idx[1..]);
      DutiesConcat(step, rest);
      StepSchedule(curve, idx[0]);
      assert Curve(curve, idx) == [curve(idx[0])] + Curve(curve, idx[1..]);
    }
  }

  lemma {:induction false} PhaseSleeps(curve: nat -> nat, idx: seq<nat>)
    ensures Slept(Phase(curve, idx)) == StepSleepMs * |idx|
  {
    if |idx| > 0 {
      var step := StepActions(curve, idx[0]);
      var rest := Phase(curve, idx[1..]);
      assert Phase(curve, idx) == step + rest;
      PhaseSleeps(curve, idx[1..]);
      DutiesConcat(step, rest);
      StepSchedule(curve, idx[0]);
    }
  }

  lemma ReverseCurve(curve: nat -> nat, idx: seq<nat>)
    ensures Curve(curve, Reverse(idx)) == Reverse(Curve(curve, idx))
  {
    forall k | 0 <= k < |idx|
      ensures Curve(curve, Reverse(idx))[k] == Reverse(Curve(curve, idx))[k]
    {
      ReverseIndex(idx, k);
      ReverseIndex(Curve(curve, idx), k);
    }
  }

  /** The schedule of a ramp over any fade-in steps `up` and fade-out steps
      `down`. */
  lemma {:induction false} RampSchedule(curve: nat -> nat, up: seq<nat>, down: seq<nat>)
    ensures Duties(Phase(curve, up) + Phase(curve, down) + [SetDuty(0)]) == Curve(curve, up) + Curve(curve, down) + [0]
    ensures Slept(Phase(curve, up) + Phase(curve, down) + [SetDuty(0)]) == StepSleepMs * (|up| + |down|)
  {
    PhaseWritesCurve(curve, up);
    PhaseWritesCurve(curve, down);
    PhaseSleeps(curve, up);
    PhaseSleeps(curve, down);
    DutiesConcat(Phase(curve, up), Phase(curve, down));
    DutiesConcat(Phase(curve, up) + Phase(curve, down), [SetDuty(0)]);
    assert Duties([SetDuty(0)]) == [0] by {
      assert [SetDuty(0)][1..] == [];
    }
    assert Slept([SetDuty(0)]) == 0 by {
      assert [SetDuty(0)][1..] == [];
    }
  }

  /** A completed pulse writes the 100 fade-in duties, the same duties in
      reverse, and a final 0; it sleeps 30 ms after each of the 200 writes, so
      it lasts 6000 ms, not the 3000 ms its constant suggests. */
  lemma CompletedPulseSchedule(curve: nat -> nat)
    ensures
      var up := Curve(curve, FadeIn());
      Duties(Pulse(curve, None).trace) == up + Reverse(up) + [0]
    ensures Slept(Pulse(curve, None).trace) == 2 * Steps * StepSleepMs == 6000
  {
    CompletedTrace(curve);
    RampSchedule(curve, FadeIn(), FadeOut());
    FadeOutCurveReversed(curve);
    assert StepSleepMs == 30;
  }

  /** The fade-out writes the fade-in's duties backwards. */
  lemma FadeOutCurveReversed(curve: nat -> nat)
    ensures Curve(curve, FadeOut()) == Reverse(Curve(curve, FadeIn()))
  {
    FadeOutReversesFadeIn();
    ReverseCurve(curve, FadeIn());
  }

  /** A completed pulse is the fade-in, the fade-out and the final 0. */
  lemma CompletedTrace(curve: nat -> nat)
    ensures Pulse(curve, None).trace == Phase(curve, FadeIn()) + Phase(curve, FadeOut()) + [SetDuty(0)]
  {
    var run := Pulse(curve, None);
    assert run.resp.Val?;
  }

  /** A failed pulse has written a prefix of the completed pulse's duties and
      then 0: the LED never stays lit. */
  lemma FailedPulseEndsDark(curve: nat -> nat, f: Fault)
    requires f.at <= 4 * Steps
    ensures Pulse(curve, Some(f)).resp == Error(f.msg)
    ensures Duties(Pulse(curve, Some(f)).trace) == Duties(Ramp(curve)[..f.at]) + [0]
  {
    DutiesConcat(Ramp(curve)[..f.at], [SetDuty(0)]);
    assert Duties([SetDuty(0)]) == [0];
  }

  /** A failure of the final `duty(0)` leaves the same writes as a completed
      pulse, the handler's `duty(0)` standing in for it, yet the pulse reports
      the error. */
  lemma FinalWriteFaultLooksComplete(curve: nat -> nat, msg: string)
    ensures Pulse(curve, Some(Fault(4 * Steps, msg))).trace == Pulse(curve, None).trace
    ensures Pulse(curve, Some(Fault(4 * Steps, msg))).resp == Error(msg)
  {
    assert Ramp(curve)[..4 * Steps] == Ramp(curve);
  }
}

=== FILE: routine.dfy ===
/** The device (`MyRoutine` in routine.py): its state, the command dispatcher,
    the button press action and one iteration of the serial loop. The radio,
    the HTTP transport, the brightness curve and hardware faults are inputs
    gathered in `Env`. */
module Routine {
  import opened Common
  import opened Json
  import Button
  import Http
  import Pulse

  /** A parsed command line. `Unrecognised` covers any other or a missing
      `cmd` value. */
  datatype Command =
    | Led
    | CheckWifi
    | ConnectWifi(ssid: Option<string>, password: Option<string>)
    | DisconnectWifi
    | GetIp
    | PulseLed
    | SetUrl(url: Option<string>)
    | SetMethod(httpMethod: Option<string>)
    | SetDataTemplate(template: Option<string>)
    | SendRequest
    | DumpHttp
    | Unrecognised(name: Option<string>)

  /** What the device's surroundings answer during one call. */
  datatype Env = Env(
    wifiConnected: bool,
    connectSucceeds: bool,
    ip: string,
    curve: nat -> nat,
    pulseFault: Option<Pulse.Fault>,
    transport: Http.Request -> Response)

  /** An effect on the outside world: a PWM duty write or an issued request. */
  datatype Effect = Duty(duty: nat) | Issued(request: Http.Request)

  /** The device state. `effects` records, in order, every duty write and
      request since start-up. */
  datatype State = State(
    led: bool,
    effects: seq<Effect>,
    http: Http.Config,
    button: Button.Button,
    running: bool)

  /** The state right after the constructor: LED off, duty 0 written, nothing
      configured, the press callback installed, the loop running. The LED pin
      is taken to start low, since `Pin(3, Pin.OUT)` sets no level. */
  function Init(): (r: State)
    ensures !r.led && r.running && r.effects == [Duty(0)] && LastDuty(r.effects) == 0
    ensures r.http.url.None? && r.http.httpMethod.None? && r.http.dataTemplate.None? && r.http.getData.None?
    ensures r.button.hasCallback && r.button.lastTime == 0
  {
    State(false, [Duty(0)], Http.Init(), Button.SetOnPress(Button.Init()), true)
  }

  /** Duty values as duty-write effects, in order. */
  function AsWrites(d: seq<nat>): (r: seq<Effect>)
    ensures |r| == |d|
    ensures forall k :: 0 <= k < |r| ==> r[k] == Duty(d[k])
  {
    seq(|d|, k requires 0 <= k < |d| => Duty(d[k]))
  }

  /** The duty the LED was last set to. */
  function LastDuty(effects: seq<Effect>): nat
  {
    if |effects| == 0 then 0
    else if effects[|effects| - 1].Duty? then effects[|effects| - 1].duty
    else LastDuty(effects[..|effects| - 1])
  }

  /** Runs a pulse: its duty writes are appended, and its reply returned. */
  function DoPulse(s: State, env: Env): (r: (State, Response))
    ensures r.0 == s.(effects := s.effects + PulseWrites(env))
    ensures r.1 == PulseReply(env)
    ensures |r.0.effects| > |s.effects| && r.0.effects[..|s.effects|] == s.effects
    ensures r.0.effects[|r.0.effects| - 1] == Duty(0) && LastDuty(r.0.effects) == 0
  {
    var written := PulseWrites(env);
    var effects := s.effects + written;
    AppendEndingDark(s.effects, written);
    var after := s.(effects := effects);
    assert after.effects == effects;
    (after, PulseReply(env))
  }

  /** What a pulse answers: `{"val": "ok"}`, or the error that stopped it. */
  function PulseReply(env: Env): Response
  {
    Pulse.Pulse(env.curve, env.pulseFault).resp
  }

  /** The duty writes of a pulse, in order, as the effects log records them;
      they end at 0 whether or not the pulse failed. */
  function PulseWrites(env: Env): (w: seq<Effect>)
    ensures |w| > 0 && w[|w| - 1] == Duty(0)
    ensures forall k :: 0 <= k < |w| ==> w[k].Duty?
  {
    var run := Pulse.Pulse(env.curve, env.pulseFault);
    Pulse.DutiesEndDark(run.trace);
    AsWrites(Pulse.Duties(run.trace))
  }

  /** A pulse that runs to its end writes the 100 fade-in duties, the same
      duties reversed, then 0. */
  lemma CompletedPulseWrites(env: Env)
    requires env.pulseFault.None?
    ensures
      var up := Pulse.Curve(env.curve, Pulse.FadeIn());
      PulseWrites(env) == AsWrites(up + Reverse(up) + [0])
  {
    Pulse.CompletedPulseSchedule(env.curve);
  }

  /** A pulse that fails writes the ramp's duties up to the failing action,
      then 0. */
  lemma FailedPulseWrites(env: Env)
    requires env.pulseFault.Some? && env.pulseFault.value.at <= 4 * Pulse.Steps
    ensures PulseWrites(env) == AsWrites(Pulse.Duties(Pulse.Ramp(env.curve)[..env.pulseFault.value.at]) + [0])
  {
    Pulse.FailedPulseEndsDark(env.curve, env.pulseFault.value);
  }

  /** Appending writes that end at duty 0 leaves the LED at duty 0. */
  lemma AppendEndingDark(before: seq<Effect>, written: seq<Effect>)
    requires |written| > 0 && written[|written| - 1] == Duty(0)
    ensures
      var effects := before + written;
      && effects[..|before|] == before
      && effects[|effects| - 1] == Duty(0)
      && LastDuty(effects) == 0
  {
    var effects := before + written;
    assert effects[|effects| - 1] == written[|written| - 1];
  }

  /** Sends the configured request: the issued request is appended, and the
      reply returned. */
  function DoSend(s: State, env: Env): (r: (State, Response))
    ensures r.0 == s.(effects := r.0.effects)
    ensures |s.effects| <= |r.0.effects| <= |s.effects| + 1 && r.0.effects[..|s.effects|] == s.effects
    ensures s.http.url.None? || s.http.httpMethod.None? ==> r == (s, Http.ConfigError)
    ensures s.http.url.Some? && s.http.httpMethod.Some? ==>
      && |r.0.effects| == |s.effects| + 1
      && r.0.effects[..|s.effects|] == s.effects
      && r.0.effects[|s.effects|] ==
         Issued(Http.Request(s.http.httpMethod.value, s.http.url.value, Http.RenderData(s.http), Http.JsonHeaders))
      && r.1 == env.transport(r.0.effects[|s.effects|].request)
  {
    var sent := Http.SendRequest(s.http, env.transport);
    match sent.request
    case None => (s, sent.resp)
    case Some(req) =>
      var effects := s.effects + [Issued(req)];
      assert effects[..|s.effects|] == s.effects;
      (s.(effects := effects), sent.resp)
  }

  function OptionalText(o: Option<string>): Value
  {
    match o
    case None => Null
    case Some(t) => Str(t)
  }

  /** The outcome of `handle_cmd`: a reply and the state afterwards, or an
      exception that escapes it. */
  datatype Handled = Replied(state: State, resp: Response) | Raised

  /** `handle_cmd` */
  function HandleCmd(s: State, cmd: Command, env: Env): (h: Handled)
    ensures h.Raised? <==> cmd.SetDataTemplate? && cmd.template.None?
    ensures h.Replied? ==>
      && h.state.running == s.running
      && h.state.button == s.button
      && h.state.http.getData == s.http.getData
      && (h.state.led != s.led <==> cmd.Led?)
      && |s.effects| <= |h.state.effects| && h.state.effects[..|s.effects|] == s.effects
      && (|h.state.effects| > |s.effects| ==> LastDuty(h.state.effects) == 0 || cmd.SendRequest?)
      && (h.state.http != s.http ==> cmd.SetUrl? || cmd.SetMethod? || cmd.SetDataTemplate?)
      && (h.state.effects != s.effects ==> cmd.PulseLed? || cmd.SendRequest?)
    ensures cmd.PulseLed? ==>
      h.Replied? && h.state == s.(effects := s.effects + PulseWrites(env)) && h.resp == PulseReply(env)
  {
    match cmd
    case Led => Replied(s.(led := !s.led), Val(Str("LED toggled")))
    case CheckWifi => Replied(s, Val(Bool(env.wifiConnected)))
    case ConnectWifi(_, _) =>
      Replied(s, Val(Str(if env.connectSucceeds then "WiFi connected" else "Failed to connect to WiFi")))
    case DisconnectWifi => Replied(s, Val(Str("WiFi disconnected")))
    case GetIp => Replied(s, Val(Str(env.ip)))
    case PulseLed =>
      var r := DoPulse(s, env);
      Replied(r.0, r.1)
    case SetUrl(url) => Replied(s.(http := Http.SetUrl(s.http, url)), Val(Str("URL set")))
    case SetMethod(m) => Replied(s.(http := Http.SetMethod(s.http, m)), Val(Str("Method set")))
    case SetDataTemplate(t) =>
      if t.None? then Raised
      else Replied(s.(http := Http.SetDataTemplate(s.http, t.value).0), Val(Str("Data template set")))
    case SendRequest =>
      var r := DoSend(s, env);
      Replied(r.0, r.1)
    case DumpHttp =>
      Replied(s, Val(Obj([
        Member("url", OptionalText(s.http.url)),
        Member("method", OptionalText(s.http.httpMethod)),
        Member("data_template", OptionalText(s.http.dataTemplate))])))
    case Unrecognised(_) => Replied(s, Val(Str("Invalid command")))
  }

  /** The radio commands answer what the radio reports and change nothing
      the model keeps. */
  lemma NetworkCommandsOnlyAnswer(s: State, env: Env, ssid: Option<string>, password: Option<string>)
    ensures HandleCmd(s, CheckWifi, env) == Replied(s, Val(Bool(env.wifiConnected)))
    ensures HandleCmd(s, ConnectWifi(ssid, password), env) ==
      Replied(s, Val(Str(if env.connectSucceeds then "WiFi connected" else "Failed to connect to WiFi")))
    ensures HandleCmd(s, DisconnectWifi, env) == Replied(s, Val(Str("WiFi disconnected")))
    ensures HandleCmd(s, GetIp, env) == Replied(s, Val(Str(env.ip)))
  {
  }

  /** `pulse` answers what the pulse returned: `{"val": "ok"}` when it ran to
      its end, the fault's error otherwise; only its duty writes are
      appended. */
  lemma PulseCommandReportsPulse(s: State, env: Env)
    ensures HandleCmd(s, PulseLed, env).state == s.(effects := s.effects + PulseWrites(env))
    ensures HandleCmd(s, PulseLed, env).resp ==
      if env.pulseFault.None? || env.pulseFault.value.at > 4 * Pulse.Steps then Val(Str("ok"))
      else Error(env.pulseFault.value.msg)
  {
    PulseReplyCases(env);
  }

  lemma PulseReplyCases(env: Env)
    ensures PulseReply(env) ==
      if env.pulseFault.None? || env.pulseFault.value.at > 4 * Pulse.Steps then Val(Str("ok"))
      else Error(env.pulseFault.value.msg)
  {
  }

  /** `led` twice puts the state back exactly as it was. */
  lemma LedTwiceRestores(s: State, env1: Env, env2: Env)
    ensures HandleCmd(s, Led, env1).Replied?
    ensures HandleCmd(HandleCmd(s, Led, env1).state, Led, env2) == Replied(s, Val(Str("LED toggled")))
  {
  }

  /** An unrecognised or missing command changes nothing and answers
      "Invalid command". */
  lemma UnrecognisedChangesNothing(s: State, name: Option<string>, env: Env)
    ensures HandleCmd(s, Unrecognised(name), env) == Replied(s, Val(Str("Invalid command")))
  {
  }

  /** `set_url` and `set_method` touch only their own field. */
  lemma SettersTouchOnlyTheirField(s: State, v: Option<string>, env: Env)
    ensures HandleCmd(s, SetUrl(v), env) == Replied(s.(http := s.http.(url := v)), Val(Str("URL set")))
    ensures HandleCmd(s, SetMethod(v), env) == Replied(s.(http := s.http.(httpMethod := v)), Val(Str("Method set")))
  {
  }

  /** `set_data_template` always answers "Data template set", though a template
      without `$$` is not stored. */
  lemma SetTemplateAlwaysAcknowledges(s: State, t: string, env: Env)
    ensures HandleCmd(s, SetDataTemplate(Some(t)), env).resp == Val(Str("Data template set"))
    ensures HandleCmd(s, SetDataTemplate(Some(t)), env).state.http.dataTemplate ==
            (if Http.HasMarker(t) then Some(t) else s.http.dataTemplate)
    ensures HandleCmd(s, SetDataTemplate(Some(t)), env).state == s.(http := HandleCmd(s, SetDataTemplate(Some(t)), env).state.http)
  {
  }

  /** `dump_http` reports the stored url, method and template verbatim (no
      rendering), `null` for an unset one, and changes nothing. */
  lemma DumpHttpIsVerbatim(s: State, env: Env)
    ensures HandleCmd(s, DumpHttp, env) == Replied(s, Val(Obj([
        Member("url", OptionalText(s.http.url)),
        Member("method", OptionalText(s.http.httpMethod)),
        Member("data_template", OptionalText(s.http.dataTemplate))])))
    ensures s.http.url.None? ==> HandleCmd(s, DumpHttp, env).resp.v.members[0].value == Null
    ensures s.http.dataTemplate.Some? ==>
      HandleCmd(s, DumpHttp, env).resp.v.members[2].value == Str(s.http.dataTemplate.value)
  {
  }

  /** Configuring the client and dumping it returns the configured values as
      given, the template unrendered. */
  lemma ConfigureThenDump(env: Env)
    ensures
      var s1 := HandleCmd(Init(), SetUrl(Some("http://x")), env).state;
      var s2 := HandleCmd(s1, SetMethod(Some("POST")), env).state;
      var s3 := HandleCmd(s2, SetDataTemplate(Some("{\"v\":$$}")), env).state;
      HandleCmd(s3, DumpHttp, env).resp == Val(Obj([
        Member("url", Str("http://x")), Member("method", Str("POST")), Member("data_template", Str("{\"v\":$$}"))]))
  {
    var t := "{\"v\":$$}";
    assert Http.HasMarker(t) by {
      assert t[5] == '$' && t[6] == '$';
    }
  }

  /** With url and method set, `send_request` issues the request built from
      the stored configuration, its body rendered from it, and answers what
      the transport answers. */
  lemma SendCommandReportsTransport(s: State, env: Env)
    requires s.http.url.Some? && s.http.httpMethod.Some?
    ensures
      var req := Http.Request(s.http.httpMethod.value, s.http.url.value, Http.RenderData(s.http), Http.JsonHeaders);
      HandleCmd(s, SendRequest, env) == Replied(s.(effects := s.effects + [Issued(req)]), env.transport(req))
  {
  }

  /** A command that sends with the URL or method unset issues nothing. */
  lemma SendGuard(s: State, env: Env)
    requires s.http.url.None? || s.http.httpMethod.None?
    ensures HandleCmd(s, SendRequest, env) == Replied(s, Http.ConfigError)
  {
  }

  /** How `button_pressed` ends: it returns whether the edge was accepted, or
      an exception raised in the callback escapes it. */
  datatype Ending = Returned(accepted: bool) | Escaped(error: string)

  /** The outcome of one button edge: the state afterwards, how the handler
      ended, and the reply the callback printed, if it got that far. */
  datatype PressOutcome = PressOutcome(state: State, ending: Ending, logged: Option<Response>)

  /** The message of the `AttributeError` raised by `self.send_request()`:
      neither `MyRoutine` nor its base class defines that method. */
  const MissingSendRequest := "'MyRoutine' object has no attribute 'send_request'"

  /** `on_button_press` as written: the pulse runs to its end, then the call
      to the routine's own `send_request` raises, so no request is issued and
      `print(res)` is never reached. */
  function OnButtonPress(s: State, env: Env): (r: (State, Ending))
    ensures r.1 == Escaped(MissingSendRequest)
    ensures r.0 == s.(effects := s.effects + PulseWrites(env))
    ensures |r.0.effects| > |s.effects| && r.0.effects[..|s.effects|] == s.effects
    ensures forall k :: |s.effects| <= k < |r.0.effects| ==> r.0.effects[k].Duty?
    ensures LastDuty(r.0.effects) == 0
  {
    var pulsed := DoPulse(s, env).0;
    assert pulsed.effects[|s.effects|..] == PulseWrites(env);
    (pulsed, Escaped(MissingSendRequest))
  }

  /** `on_button_press` as evidently intended, calling the HTTP client's
      `send_request`: a pulse, then the configured request, whose reply is
      printed. */
  function OnButtonPressIntended(s: State, env: Env): (r: (State, Response))
    ensures r.0 == s.(effects := r.0.effects)
    ensures
      var pulsed := s.effects + PulseWrites(env);
      && |pulsed| <= |r.0.effects| <= |pulsed| + 1
      && r.0.effects[..|pulsed|] == pulsed
      && (|r.0.effects| == |pulsed| + 1 <==> s.http.url.Some? && s.http.httpMethod.Some?)
    ensures s.http.url.None? || s.http.httpMethod.None? ==> r.1 == Http.ConfigError
  {
    var pulsed := DoPulse(s, env).0;
    var sent := DoSend(pulsed, env);
    assert sent.0 == s.(effects := sent.0.effects);
    sent
  }

  /** `button_pressed` with `on_button_press` installed as the callback, as
      written: an accepted edge stores its time before the callback runs, and
      the callback's exception then escapes the handler. */
  function Press(s: State, now: int, env: Env): (p: PressOutcome)
    ensures p.ending == Returned(false) <==> now - s.button.lastTime <= Button.DebounceMs
    ensures p.ending == Returned(false) ==> p == PressOutcome(s, Returned(false), None)
    ensures p.ending != Returned(false) ==> p.state.button == s.button.(lastTime := now)
    ensures p.ending.Escaped? <==> p.ending != Returned(false) && s.button.hasCallback
    ensures p.ending == Returned(true) ==> p.state == s.(button := p.state.button)
    ensures p.ending.Escaped? ==> (p.state, p.ending) == OnButtonPress(s.(button := p.state.button), env)
    ensures p.logged.None?
  {
    var e := Button.Pressed(s.button, now);
    var s0 := s.(button := e.button);
    if !e.invokes then PressOutcome(s0, Returned(e.accepted), None)
    else
      var r := OnButtonPress(s0, env);
      PressOutcome(r.0, r.1, None)
  }

  /** `button_pressed` with the intended callback installed: an accepted edge
      that runs the callback returns `True` after the reply is printed. */
  function PressIntended(s: State, now: int, env: Env): (p: PressOutcome)
    ensures p.ending == Returned(now - s.button.lastTime > Button.DebounceMs)
    ensures !p.ending.accepted ==> p == PressOutcome(s, Returned(false), None)
    ensures p.ending.accepted ==> p.state.button == s.button.(lastTime := now)
    ensures p.logged.Some? <==> p.ending.accepted && s.button.hasCallback
    ensures p.ending.accepted && !s.button.hasCallback ==> p.state == s.(button := p.state.button)
    ensures p.logged.Some? ==>
      (p.state, p.logged.value) == OnButtonPressIntended(s.(button := p.state.button), env)
  {
    var e := Button.Pressed(s.button, now);
    var s0 := s.(button := e.button);
    if !e.invokes then PressOutcome(s0, Returned(e.accepted), None)
    else
      var r := OnButtonPressIntended(s0, env);
      PressOutcome(r.0, Returned(true), Some(r.1))
  }

  /** As written, a button press never issues a request: everything it
      appends is a duty write, and when the callback ran those are exactly
      the pulse's writes, ending dark. */
  lemma PressNeverIssues(s: State, now: int, env: Env)
    ensures
      var p := Press(s, now, env);
      && |s.effects| <= |p.state.effects|
      && p.state.effects[..|s.effects|] == s.effects
      && (forall k :: |s.effects| <= k < |p.state.effects| ==> p.state.effects[k].Duty?)
      && (p.ending.Escaped? ==> LastDuty(p.state.effects) == 0)
      && (p.ending.Escaped? ==> p.state.effects == s.effects + PulseWrites(env))
  {
    var p := Press(s, now, env);
    if !p.ending.Escaped? {
      assert p.state.effects == s.effects;
    }
  }

  /** With the intended callback, a press with the client configured issues
      exactly the request `send_request` builds, after the pulse, and prints
      the transport's answer to it. */
  lemma IntendedPressIssuesConfiguredRequest(s: State, now: int, env: Env)
    requires now - s.button.lastTime > Button.DebounceMs && s.button.hasCallback
    requires s.http.url.Some? && s.http.httpMethod.Some?
    ensures
      var p := PressIntended(s, now, env);
      var req := Http.Request(s.http.httpMethod.value, s.http.url.value,
                              Http.RenderData(s.http), Http.JsonHeaders);
      && p.state.effects == s.effects + PulseWrites(env) + [Issued(req)]
      && p.logged == Some(env.transport(req))
  {
    var s0 := s.(button := s.button.(lastTime := now));
    var pulsed := DoPulse(s0, env).0;
    var sent := DoSend(pulsed, env);
    assert pulsed.http == s.http;
  }

  /** A line the device prints. */
  datatype Out = Echo(line: string) | Reply(resp: Response) | Beat

  /** The text of a printed line. */
  function Text(o: Out): string
  {
    match o
    case Echo(line) => line
    case Reply(r) => Encode(ToValue(r))
    case Beat => Encode(Heartbeat)
  }

  function Beats(out: seq<Out>): nat
  {
    if |out| == 0 then 0 else (if out[0].Beat? then 1 else 0) + Beats(out[1..])
  }

  datatype Iteration = Iteration(state: State, out: seq<Out>)

  /** One pass of the `run` loop. `input` is the line `input()` returned, or
      `None` when it raised; `parse` is `json.loads` followed by the field
      look-ups, `None` when either raised. */
  function Iterate(s: State, input: Option<string>, parse: string -> Option<Command>, env: Env): (it: Iteration)
    ensures input.Some? ==> |it.out| > 0 && it.out[0] == Echo(input.value)
    ensures input.None? ==> it.out == (if s.running then [Beat] else [])
    ensures Beats(it.out) == (if s.running then 1 else 0)
    ensures s.running ==> it.out[|it.out| - 1] == Beat
    ensures |it.out| <= 3
    ensures it.state.running == s.running
    ensures
      && input.Some? && parse(input.value).Some?
      && HandleCmd(s, parse(input.value).value, env).Replied?
      <==> |it.out| >= 2 && it.out[1].Reply?
    ensures |it.out| >= 2 && it.out[1].Reply? ==>
      var h := HandleCmd(s, parse(input.value).value, env);
      it.out[1] == Reply(h.resp) && it.state == h.state
    ensures !(|it.out| >= 2 && it.out[1].Reply?) ==> it.state == s
    ensures input.Some? && !(|it.out| >= 2 && it.out[1].Reply?) ==>
      it.out == [Echo(input.value)] + (if s.running then [Beat] else [])
    ensures |it.out| >= 2 && it.out[1].Reply? ==> |it.out| == 2 + (if s.running then 1 else 0)
  {
    var (s1, printed) :=
      match input
      case None => (s, [])
      case Some(line) =>
        match parse(line)
        case None => (s, [Echo(line)])
        case Some(cmd) =>
          match HandleCmd(s, cmd, env)
          case Raised => (s, [Echo(line)])
          case Replied(s2, r) => (s2, [Echo(line), Reply(r)]);
    var beat := if s.running then [Beat] else [];
    NoBeats(printed);
    BeatsConcat(printed, beat);
    Iteration(s1, printed + beat)
  }

  lemma {:induction false} NoBeats(out: seq<Out>)
    requires forall k :: 0 <= k < |out| ==> !out[k].Beat?
    ensures Beats(out) == 0
  {
    if |out| > 0 {
      NoBeats(out[1..]);
    }
  }

  lemma {:induction false} BeatsConcat(a: seq<Out>, b: seq<Out>)
    ensures Beats(a + b) == Beats(a) + Beats(b)
  {
    if |a| == 0 {
      assert a + b == b;
    } else {
      assert (a + b)[1..] == a[1..] + b;
      BeatsConcat(a[1..], b);
    }
  }

  /** The states the firmware can be in: the value provider is never installed,
      the press callback always is, and the loop never stops. */
  ghost predicate Firmware(s: State)
  {
    s.http.getData.None? && s.button.hasCallback && s.running
  }

  lemma FirmwareStepsStayFirmware(s: State, cmd: Command, now: int, input: Option<string>,
                                  parse: string -> Option<Command>, env: Env)
    requires Firmware(s)
    ensures Firmware(Init())
    ensures HandleCmd(s, cmd, env).Replied? ==> Firmware(HandleCmd(s, cmd, env).state)
    ensures Firmware(Press(s, now, env).state)
    ensures Firmware(PressIntended(s, now, env).state)
    ensures Firmware(Iterate(s, input, parse, env).state)
  {
    FirmwareCommandStep(s, cmd, env);
    FirmwarePressStep(s, now, env);
    FirmwareLoopStep(s, input, parse, env);
  }

  lemma FirmwareLoopStep(s: State, input: Option<string>, parse: string -> Option<Command>, env: Env)
    requires Firmware(s)
    ensures Firmware(Iterate(s, input, parse, env).state)
  {
    if input.Some? && parse(input.value).Some? {
      FirmwareCommandStep(s, parse(input.value).value, env);
    }
  }

  lemma FirmwareCommandStep(s: State, cmd: Command, env: Env)
    requires Firmware(s)
    ensures HandleCmd(s, cmd, env).Replied? ==> Firmware(HandleCmd(s, cmd, env).state)
  {
  }

  lemma FirmwarePressStep(s: State, now: int, env: Env)
    requires Firmware(s)
    ensures Firmware(Press(s, now, env).state)
    ensures Firmware(PressIntended(s, now, env).state)
  {
  }

  /** Because the firmware never installs a value provider, every request it
      sends carries `render_data`'s error dictionary as its body. */
  lemma FirmwareNeverRenders(s: State, env: Env)
    requires Firmware(s)
    requires s.http.url.Some? && s.http.httpMethod.Some?
    ensures
      var h := HandleCmd(s, SendRequest, env);
      h.state.effects == s.effects + [Issued(Http.Request(s.http.httpMethod.value, s.http.url.value,
                                                         Http.Unrendered(Http.RenderError), Http.JsonHeaders))]
  {
  }
}

=== FILE: session.dfy ===
/** The two ends of the serial link together: which device lines the host's
    matcher takes as the reply to a command, and which it skips. */
module Session {
  import opened Common
  import opened Json
  import Routine
  import Host

  /** A device line as `readline` returns it: the printed text and `\n`. */
  function Wire(o: Routine.Out): Host.Read
  {
    Host.Got(Routine.Text(o) + "\n")
  }

  /** The echo of a command as the host frames it: a JSON object whose first
      key is `cmd`. */
  predicate IsCommandLine(line: string)
  {
    StartsWith(line, "{\"cmd\"")
  }

  /** The lines that never answer a command. */
  predicate Quiet(o: Routine.Out)
  {
    || o.Beat?
    || (o.Reply? && o.resp.Error?)
    || (o.Echo? && IsCommandLine(o.line))
  }

  lemma ObjectLineStrips(ms: seq<Member>)
    ensures Host.Strip(Encode(Obj(ms)) + "\n") == Encode(Obj(ms))
  {
    var text := Encode(Obj(ms));
    assert text[0] == '{' && text[|text| - 1] == '}';
    Host.StripTerminated(text, "\n");
  }

  lemma QuoteShort(k: string)
    requires 0 < |k| && 'a' <= k[0] <= 'z'
    ensures StartsWith(Quote(k), ['"', k[0]])
  {
    assert Escape(k)[0] == k[0];
  }

  /** A line that strips back to itself and opens with a head other than
      `{"val` is never taken. */
  lemma OtherHeadSkipped(text: string, head: string)
    requires Host.Strip(text + "\n") == text
    requires |head| >= |Host.ValPrefix| && StartsWith(text, head) && head[..|Host.ValPrefix|] != Host.ValPrefix
    ensures !Host.Stops(Host.Got(text + "\n"))
  {
    Host.OtherHeadNeverMatches(text, head);
  }

  /** An object line whose first key starts with a lower-case letter other
      than `v` is never taken. */
  lemma OtherFirstKeySkipped(key: string, x: Value, rest: seq<Member>)
    requires 0 < |key| && 'a' <= key[0] <= 'z' && key[0] != 'v'
    ensures !Host.Stops(Host.Got(Encode(Obj([Member(key, x)] + rest)) + "\n"))
  {
    ObjectLineStrips([Member(key, x)] + rest);
    ObjectHead(Member(key, x), rest);
    QuoteShort(key);
    var head := "{" + Quote(key) + ": ";
    assert head[2] == key[0];
    assert head[..|Host.ValPrefix|] != Host.ValPrefix by {
      assert head[..|Host.ValPrefix|][2] != Host.ValPrefix[2];
    }
    OtherHeadSkipped(Encode(Obj([Member(key, x)] + rest)), head);
  }

  /** A `{"val": ...}` reply is always taken. */
  lemma ValueReplyMatches(v: Value)
    ensures Host.Stops(Wire(Routine.Reply(Val(v))))
    ensures Host.Strip(Routine.Text(Routine.Reply(Val(v))) + "\n") == Encode(ToValue(Val(v)))
  {
    var ms := [Member("val", v)];
    var text := Encode(Obj(ms));
    assert Routine.Text(Routine.Reply(Val(v))) == text by {
      assert ToValue(Val(v)) == Obj(ms);
    }
    ObjectLineStrips(ms);
    ValPrefixMatches(v);
  }

  lemma ValPrefixMatches(v: Value)
    ensures Host.Matches(Encode(Obj([Member("val", v)])))
  {
    var text := Encode(Obj([Member("val", v)]));
    ValHead(v);
    assert ToValue(Val(v)) == Obj([Member("val", v)]);
    var head := "{\"val\": ";
    assert text[..|head|] == head;
    assert text[..5] == head[..5];
    assert head[..5] == Host.ValPrefix;
  }

  /** Heartbeats, error replies and command echoes are never taken. */
  lemma QuietLinesSkipped(o: Routine.Out)
    requires Quiet(o)
    ensures !Host.Stops(Wire(o))
  {
    match o
    case Beat =>
      OtherFirstKeySkipped("status", Str("heartbeat"), []);
      assert [Member("status", Str("heartbeat"))] + [] == [Member("status", Str("heartbeat"))];
    case Reply(r) =>
      OtherFirstKeySkipped("error", Str(r.msg), []);
      assert [Member("error", Str(r.msg))] + [] == [Member("error", Str(r.msg))];
    case Echo(line) =>
      var p := "{\"cmd\"";
      Host.StripKeepsPrefix(line + "\n", p);
      assert p[..5][2] != Host.ValPrefix[2];
      Host.OtherHeadNeverMatches(Host.Strip(line + "\n"), p);
  }

  /** The stream the host sees when the device answers a command line with
      `{"val": ...}` after `beats` heartbeats. */
  function ReplyStream(beats: nat, line: string, v: Value, later: seq<Host.Read>): seq<Host.Read>
  {
    seq(beats, _ => Wire(Routine.Beat)) + [Wire(Routine.Echo(line)), Wire(Routine.Reply(Val(v)))] + later
  }

  /** Nothing before the reply in such a stream stops the host's polling. */
  lemma QuietBeforeReply(line: string, beats: nat, v: Value, later: seq<Host.Read>)
    requires IsCommandLine(line)
    ensures forall j :: 0 <= j < beats + 1 ==> !Host.Stops(Host.ReadAt(ReplyStream(beats, line, v, later), j))
  {
    var stream := ReplyStream(beats, line, v, later);
    forall j | 0 <= j < beats + 1
      ensures !Host.Stops(Host.ReadAt(stream, j))
    {
      if j < beats {
        assert stream[j] == Wire(Routine.Beat);
        QuietLinesSkipped(Routine.Beat);
      } else {
        assert stream[j] == Wire(Routine.Echo(line));
        QuietLinesSkipped(Routine.Echo(line));
      }
    }
  }

  lemma {:induction false} ReplyAfterQuietLines<T>(line: string, beats: nat, v: Value, later: seq<Host.Read>,
                                                   loads: string -> Result<T, string>)
    requires IsCommandLine(line)
    requires beats + 2 <= Host.MaxReads
    ensures Host.Stops(Wire(Routine.Reply(Val(v))))
    ensures Host.SendCommand(line, None, ReplyStream(beats, line, v, later), loads) ==
      Host.Exchange(Some(Host.Frame(line)), beats + 2, Host.Conclude(Wire(Routine.Reply(Val(v))), loads))
  {
    var stream := ReplyStream(beats, line, v, later);
    QuietBeforeReply(line, beats, v, later);
    assert Host.ReadAt(stream, beats + 1) == Wire(Routine.Reply(Val(v)));
    ValueReplyMatches(v);
    Host.FirstStopDecides(line, stream, loads, beats + 1);
  }

  /** A command the device answers with `{"val": ...}`: after up to nine
      stale heartbeats, the host skips them and the echo, takes the reply at
      read `beats + 2`, and leaves the rest of the stream unread. */
  lemma ValueReplyReachesHost<T>(s: Routine.State, line: string, parse: string -> Option<Routine.Command>,
                                 env: Routine.Env, beats: nat, later: seq<Host.Read>,
                                 loads: string -> Result<T, string>, v: Value)
    requires IsCommandLine(line)
    requires beats + 2 <= Host.MaxReads
    requires parse(line).Some?
    requires Routine.HandleCmd(s, parse(line).value, env).Replied?
    requires Routine.HandleCmd(s, parse(line).value, env).resp == Val(v)
    ensures
      var out := Routine.Iterate(s, Some(line), parse, env).out;
      && |out| >= 2
      && out[..2] == [Routine.Echo(line), Routine.Reply(Val(v))]
      && Host.Stops(Wire(out[1]))
      && Host.SendCommand(line, None, ReplyStream(beats, line, v, later), loads) ==
         Host.Exchange(Some(Host.Frame(line)), beats + 2, Host.Conclude(Wire(out[1]), loads))
  {
    var out := Routine.Iterate(s, Some(line), parse, env).out;
    assert out[0] == Routine.Echo(line);
    assert out[1] == Routine.Reply(Val(v));
    ReplyAfterQuietLines(line, beats, v, later, loads);
  }

  /** With ten or more stale heartbeats ahead of the echo, the host's eleven
      reads end before the reply arrives: the call returns no result and the
      reply is lost. */
  lemma LateReplyIsLost<T>(line: string, beats: nat, v: Value, later: seq<Host.Read>,
                           loads: string -> Result<T, string>)
    requires IsCommandLine(line)
    requires beats + 2 > Host.MaxReads
    ensures Host.SendCommand(line, None, ReplyStream(beats, line, v, later), loads) ==
      Host.Exchange(Some(Host.Frame(line)), Host.MaxReads, Host.NoResult)
  {
    QuietBeforeReply(line, beats, v, later);
    Host.NoStopMeansNoResult(line, ReplyStream(beats, line, v, later), loads);
  }

  /** Error replies look like silence: a stream of quiet device lines ends the
      call with no result after eleven reads, whatever the command was. */
  lemma ErrorsLookLikeSilence<T>(encoded: string, outs: seq<Routine.Out>, loads: string -> Result<T, string>)
    requires forall k :: 0 <= k < |outs| ==> Quiet(outs[k])
    ensures
      var stream := seq(|outs|, k requires 0 <= k < |outs| => Wire(outs[k]));
      Host.SendCommand(encoded, None, stream, loads) == Host.Exchange(Some(Host.Frame(encoded)), Host.MaxReads, Host.NoResult)
  {
    var stream := seq(|outs|, k requires 0 <= k < |outs| => Wire(outs[k]));
    forall j | 0 <= j < Host.MaxReads
      ensures !Host.Stops(Host.ReadAt(stream, j))
    {
      if j < |outs| {
        QuietLinesSkipped(outs[j]);
      } else {
        assert Host.Strip("") == "";
      }
    }
    Host.NoStopMeansNoResult(encoded, stream, loads);
  }
}
